=== FILE: README.md ===
# A Dafny model of the core of a Twitch chat bot

The bot joins Twitch chat channels over IRC. In chat, users define rules with
`#set <match> <response…>`. The bot stores those rules in a MySQL table, keeps
a cached copy of the table for the web frontend, and pushes every ordinary
chat line to the browsers subscribed over a websocket.

This project models the four sequential pieces of that bot as pure functions
over immutable data. Every I/O, lock or mailbox outcome is an explicit input.

- **The IRC line codec** (`irc/src/client.rs`), in module `IrcClient`.
  - The decoder behind `next_message` is the anchored regular expression at
    line 13, under Rust `regex` leftmost-first semantics.
  - It is modelled twice. `Decomposes` is the pattern as a relation: some
    choice of the uncaptured parts rebuilds the line. `Decode` is the
    deterministic choice the engine makes; `FindSplit` takes the last
    separator, last marker, last `@` and last `!` in turn.
  - `Decode` is proved sound and complete against `Decomposes`. It recovers
    the fields of every line built from unambiguous parts.
  - The encoders: `PASS`, `NICK`, `JOIN #c` and `PRIVMSG #c :m`.
  - `send_line` writes the text, then a bare `\n`, then flushes, and stops at
    the first failure.
  - The builder's `connect` queues PASS before NICK.
- **Routing** (`src/main.rs`, `run_irc`), in module `Routing`.
  - First one JOIN per configured channel, in order.
  - Then, per line read: a chat text starting with `#` becomes a `MetaCommand`
    (the `#` removed, the rest trimmed); any other chat text becomes a
    `MassSend`; unmatched lines are dropped.
  - A failed read ends the loop.
  - The loop is a method with invariants, proved equal to a recursive
    reference, `Dispatch`.
- **The command processor** (`commands/src/lib.rs`), in module `Commands`.
  - The verb is the text before the first space, and only `set` is handled.
  - The rest is trimmed and split at its first space into the match expression
    and the response.
  - The store's answer picks the reply line.
- **The rule store and its cache** (`cold_data/src/lib.rs`,
  `cold_data/src/cache.rs`, `cold_data/src/models.rs`), in modules `Storage`,
  `Models`, `CommandCache` and `ColdData`.
  - The table is a sequence of rows with unique `(channel, match_expr)` keys.
    `View` turns it into a lookup map.
  - `REPLACE INTO` and `DELETE … WHERE` act on that sequence.
  - Each write handler writes first. It refreshes the one shared snapshot only
    when rows changed, then returns the row count.
- **The subscriber registry** (`web_frontend/src/ws_update.rs`), in module
  `WsUpdate`.
  - A map from `usize` ids to mailboxes, with connect (the random id is an
    input; a colliding id overwrites), disconnect, and a best-effort fan-out
    that never changes membership.
  - The lifecycle of one websocket session.
- Module `Pipeline` follows one chat line through all of them: decoded, routed,
  parsed and stored.

Module `Text` holds the Rust string operations the core relies on: `str::trim`
with the Unicode `White_Space` set, `str::find` and `starts_with`. `Results`
holds `Option` and `Result`.

Behaviours of the code that the model keeps as they are:

- The stored response keeps the space that separated it from the match
  expression: `#set !hi hello there` stores ` hello there`.
- Outbound lines end with a bare `\n`, not the CR-LF that section 2.3 of
  RFC 2812 prescribes.
- PASS is queued before NICK, whatever order the builder calls came in.
- Only the `set` verb exists. No chat verb removes a rule, and no rule change
  triggers a broadcast.
- Any `Ok(n)` from the store gets the "has been set" reply, whatever `n` is.

`IrcClient.CommandWord` is not part of the bot: it is the reader of section
2.3.1 of RFC 2812 (command up to the first space, then the parameters), used
to state what the formatted `JOIN` and `PRIVMSG` lines say.

## Model

| member | source | states |
|---|---|---|
| `Text.Trim` | commands/src/lib.rs:53 | `str::trim`: the input is a whitespace-only prefix, the result and a whitespace-only suffix; the result neither starts nor ends with whitespace |
| `Text.TrimExact` | commands/src/lib.rs:53 | trimming any whitespace-wrapped text whose ends are not whitespace gives back exactly that text |
| `Text.Find` | commands/src/lib.rs:51 | `str::find`: none exactly when the character is absent, otherwise an index holding it with no earlier occurrence |
| `Text.FindAt` | commands/src/lib.rs:51 | an index holding the character with none before it is what `find` answers |
| `Text.LastWhere` | irc/src/client.rs:13 | the largest index of a range that satisfies a predicate, and none only when no index in the range does |
| `IrcClient.FindSplit` | irc/src/client.rs:13 | the split the regex engine reports is valid, dominates every valid split, and comes before each of them in the backtracking order (longer earlier `.*` first); there is none exactly when no split is valid |
| `IrcClient.Decode` | irc/src/client.rs:131-139 | an unmatched line comes back unchanged as `Unknown`; a `ChannelMessage` comes exactly from lines that have a valid split, and those start with `:` and end with `\r\n` |
| `IrcClient.NextMessage` | irc/src/client.rs:117-140 | a failed read is `ReadFailed`; a line that was read is a channel message exactly when the pattern matches it, and then its fields rebuild the line; otherwise it is returned whole as `Unknown` |
| `IrcClient.DecodeSound` | irc/src/client.rs:13 | soundness: the decoded user, channel and message rebuild the line with some ident, host and three wildcard characters |
| `IrcClient.DecomposesDecodes` | irc/src/client.rs:13 | completeness: every line the pattern matches decodes to a channel message |
| `IrcClient.WireIsSplit` | irc/src/client.rs:13 | every decomposition of a line is a valid split whose captures are the parts it was built from |
| `IrcClient.NoRivalSplit` | irc/src/client.rs:13 | a split whose uncaptured parts leave no other `!`, `@`, marker or separator is the only split that dominates it |
| `IrcClient.WireDecodes` | irc/src/client.rs:131-136 | round trip: a line built from user, channel and message, with no ambiguous separators, decodes to exactly those three |
| `IrcClient.DecodedFieldsSingleLine` | irc/src/client.rs:13 | no decoded user, channel or message contains `\n` |
| `IrcClient.DecodedMessageHasNoSeparator` | irc/src/client.rs:13 | because the channel capture is greedy, a decoded message never contains ` :` |
| `IrcClient.DecodeExample` | irc/src/client.rs:131-136 | `:alice!a@a.tmi.twitch.tv PRIVMSG #mychan :#set !hi hello there\r\n` decodes to `alice`, `mychan`, `#set !hi hello there` |
| `IrcClient.JoinLineReadsBack` | irc/src/client.rs:174-176 | `join(n)` sends a `JOIN` command whose parameter text is `#n` (a single parameter when `n` has no space) |
| `IrcClient.PrivmsgLineReadsBack` | irc/src/client.rs:240 | for a channel `c` without a space, `SendChannelMessage` sends a `PRIVMSG` command whose parameters are `#c` and the trailing `:m` |
| `IrcClient.RelayedPrivmsgDecodes` | irc/src/client.rs:240 | the bot's own `PRIVMSG`, relayed back with the sender's prefix, decodes to sender, channel and message when the message holds no ` :`, the channel no `#` and the nick no `!` or `@` |
| `IrcClient.SendNewLine` | irc/src/client.rs:164-170 | writes exactly one `\n`, or fails with `WriteFailed` and writes nothing |
| `IrcClient.SendLine` | irc/src/client.rs:151-161 | succeeds exactly when the text, the newline and the flush all succeed; writes the line then `\n`; a failed first write writes nothing and no newline follows |
| `IrcClient.UnframeFrame` | irc/src/client.rs:151-161 | reading the stream back line by line returns exactly the lines sent, when none holds `\n` |
| `IrcClient.Connect` | irc/src/client.rs:58-70 | fails with `ConnectionFailed` exactly when the TCP connect or the clone fails; otherwise queues PASS first and NICK last, each only if set, and nothing else |
| `IrcClient.HandleWriterMessage` | irc/src/client.rs:190-241 | each writer message is one `send_line`: the raw line, `JOIN #c` or `PRIVMSG #c :m`, followed by `\n`; it succeeds exactly when every write and the flush do, fails only with `WriteFailed`, a failed first write leaves the stream as it was, and a failed newline write leaves the line without `\n` |
| `IrcClient.Create` | irc/src/client.rs:36-43 | a new builder holds the address and no nickname or password |
| `IrcClient.Nick` | irc/src/client.rs:45-49 | sets the nickname and changes nothing else |
| `IrcClient.Pass` | irc/src/client.rs:51-55 | sets the password and changes nothing else |
| `IrcClient.PasswordFirst` | src/main.rs:39-42 | the chain `create(..).nick(n).pass(p).connect()` queues exactly `PASS p` then `NICK n`, although the nickname was set first |
| `Storage.Without` | cold_data/src/lib.rs:96-97 | keeps exactly the rows whose key differs from the given one |
| `Storage.ViewWithout` | cold_data/src/lib.rs:96-97 | dropping the rows with one key removes exactly that key from the lookup |
| `Storage.ReplaceInto` | cold_data/src/lib.rs:74-80 | the upsert keeps keys unique, maps the row's key to its command, leaves every other key as it was, and the row is in the table |
| `Storage.DeleteWhere` | cold_data/src/lib.rs:96-97 | deletes only rows whose channel and match expression both match; the lookup loses exactly that key; the count is the number of rows gone, positive exactly when the key was present |
| `Storage.DeletedCount` | cold_data/src/lib.rs:96-97 | some row is deleted exactly when some row carries the key |
| `Storage.ReplaceIntoSingleRow` | cold_data/src/lib.rs:74-80 | after the upsert exactly one row carries the key, the new one |
| `Storage.SecondReplaceReplaces` | cold_data/src/lib.rs:74-80 | two upserts with one key leave one row, carrying the later command |
| `CommandCache.New` | cold_data/src/cache.rs:24-30 | a new cache holds an empty snapshot |
| `CommandCache.Update` | cold_data/src/cache.rs:52-64 | succeeds exactly without a fault, and then the snapshot is the full table; a failed checkout, load or lock gives its error and keeps the snapshot |
| `CommandCache.UpdateAsync` | cold_data/src/cache.rs:32-50 | fails only on a poisoned lock; the snapshot changes only to a listing that was delivered and succeeded, and is otherwise kept while `Ok` is still returned |
| `ColdData.Start` | cold_data/src/lib.rs:40-55 | the pool starts over the existing table and shares the cache its caller passes, unchanged; a cache from `CommandCache::new` starts it empty |
| `ColdData.HandleCreate` | cold_data/src/lib.rs:62-87 | a failed checkout or statement changes nothing; otherwise the key maps to the command and no other key changes; a zero count leaves the cache alone; when rows changed, it succeeds exactly when the refresh works, and a failed refresh gives an error over the changed table with the old cache; every error keeps the old cache; `Ok(n)` returns the statement's count, and with `n > 0` the cache equals the table |
| `ColdData.AfterWrite` | cold_data/src/lib.rs:82-86 | refreshes only when rows changed; a refresh error is returned and keeps the old cache; success returns the count unchanged and, when rows changed, a cache equal to the table |
| `ColdData.HandleRemove` | cold_data/src/lib.rs:90-104 | a failed checkout or statement changes nothing; otherwise only rows with both channel and match expression equal go; an absent key returns `Ok(0)` with the cache untouched; a present key succeeds exactly when the refresh works, with a positive count; every error keeps the old cache; `Ok(n)` counts the rows deleted, and with `n > 0` the cache equals the table |
| `ColdData.HandleList` | cold_data/src/lib.rs:107-120 | succeeds exactly when checkout and load succeed, and then returns every row of the table |
| `Commands.Parse` | commands/src/lib.rs:51-60 | a command is recognised exactly when the text starts with `set `; it is a usage error exactly when the trimmed rest has no space; otherwise the match expression has no space and, with the response (which starts with the space), makes up the trimmed rest |
| `Commands.VerbIsSet` | commands/src/lib.rs:51-56 | the text before the first space is `set` exactly when the text starts with `set ` |
| `Commands.SetTextParses` | commands/src/lib.rs:51-68 | round trip: for a non-empty match expression without spaces that does not start with whitespace, and a non-empty text that does not end with whitespace, parsing `set <match> <text>` gives back the match expression and ` <text>`, with its leading space |
| `Commands.Handle` | commands/src/lib.rs:40-103 | one store request exactly for a `set` with a space in its trimmed rest, carrying the channel and the parsed rule; a usage reply for a `set` without one; the set reply for any `Ok`, the failure reply for `Err`, no reply if the request was not delivered; always returns the empty string |
| `Commands.NoSpaceNoEffect` | commands/src/lib.rs:51-102 | text without a space causes no request and no reply |
| `Commands.OtherVerbIgnored` | commands/src/lib.rs:55-98 | any verb other than exactly `set` causes no request and no reply |
| `Commands.SetTextHandled` | commands/src/lib.rs:57-77 | a well-formed `set` asks the store for exactly the typed rule in the same channel, and a successful store answer gets `@<user> Command has been set!` |
| `Commands.UsageWithoutCommand` | commands/src/lib.rs:57-96 | `set` followed by a match expression and no response gets the usage reply in the same channel and sends no request |
| `Commands.UsageExample` | commands/src/lib.rs:88-96 | `set !hi` gets the usage reply in the same channel and no request |
| `WsUpdate.Default` | web_frontend/src/ws_update.rs:20-27 | a fresh server has no clients |
| `WsUpdate.Connect` | web_frontend/src/ws_update.rs:49-58 | returns the rolled id, which then maps to the new mailbox; other ids keep their mailbox; a colliding id is overwritten |
| `WsUpdate.Disconnect` | web_frontend/src/ws_update.rs:68-75 | removes exactly the id and returns it; everyone else keeps their mailbox; an absent id changes nothing |
| `WsUpdate.Fanout` | web_frontend/src/ws_update.rs:31-35 | every registered id whose mailbox accepts gets one message with the same text, addressed to its own mailbox |
| `WsUpdate.MassSend` | web_frontend/src/ws_update.rs:83-94 | the loop delivers to exactly the registered ids that do not fail, each once with the same text; a failure does not stop the others |
| `WsUpdate.Step` | web_frontend/src/ws_update.rs:49-94 | a connect answers the rolled id and stores the mailbox under it, keeping every other id; a disconnect answers the id and removes exactly it; a broadcast changes no membership and answers the deliveries of `Fanout` |
| `WsUpdate.ConnectedReceives` | web_frontend/src/ws_update.rs:49-94 | a subscriber that has just registered receives the next broadcast text in its own mailbox, unless its delivery fails |
| `WsUpdate.AbsentStaysUntargeted` | web_frontend/src/ws_update.rs:68-94 | an unregistered id gets no delivery until some connect rolls it again |
| `WsUpdate.DisconnectedUntargeted` | web_frontend/src/ws_update.rs:68-94 | after `Disconnect(id)`, no later broadcast targets `id` unless it is registered again |
| `WsUpdate.BroadcastsKeepMembers` | web_frontend/src/ws_update.rs:83-94 | any run of broadcasts leaves the registry as it was |
| `WsUpdate.NewSession` | web_frontend/src/ws_update.rs:112-119 | a session starts running with id 0 |
| `WsUpdate.Started` | web_frontend/src/ws_update.rs:124-141 | the id becomes the server's answer; a lost answer stops the session and keeps id 0 |
| `WsUpdate.Stopping` | web_frontend/src/ws_update.rs:143-146 | stopping sends `Disconnect` with the session's current id |
| `WsUpdate.OnUpdate` | web_frontend/src/ws_update.rs:149-155 | a broadcast text reaches the browser unchanged |
| `WsUpdate.OnWsMessage` | web_frontend/src/ws_update.rs:157-173 | exactly a ping is answered, by a pong with the same payload; only a close stops the session; the id never changes |
| `WsUpdate.SessionLifecycle` | web_frontend/src/ws_update.rs:124-146 | a session that registers under a free id and then stops, with no event in between, leaves the registry as it found it |
| `WsUpdate.SessionCollision` | web_frontend/src/ws_update.rs:49-75 | a session that registers under an id already taken overwrites the earlier subscriber, and its `Disconnect` on stopping drops that id, so the earlier subscriber is gone as well; every other id stays |
| `WsUpdate.LostConnectDropsZero` | web_frontend/src/ws_update.rs:133-146 | a session whose connect was lost still sends `Disconnect { id: 0 }`, removing whoever holds id 0 |
| `Routing.Route` | src/main.rs:77-95 | unmatched lines have no effect; a command comes only from a chat text starting with `#`, keeps channel and user, and is the rest after the `#` with its outer whitespace removed (only whitespace around it, and it neither starts nor ends with whitespace); every other chat text goes to the update server as the `{:?}` rendering of the message; no line causes a join |
| `Routing.Joins` | src/main.rs:68-70 | one join per configured channel, in configuration order |
| `Routing.DispatchStopsAtFailure` | src/main.rs:72-76 | nothing after a failed read has any effect |
| `Routing.DispatchAppend` | src/main.rs:72-97 | the effects of successive runs of lines are the effects of each run, in order |
| `Routing.LineEffects` | src/main.rs:73-95 | one read of a line: no effect exactly when the pattern does not match; otherwise exactly one effect, a command from the same channel and user for a message starting with `#`, else the update carrying the `{:?}` rendering |
| `Routing.LineJoinsNothing` | src/main.rs:77-95 | no line read causes a join |
| `Routing.DispatchJoinsNothing` | src/main.rs:72-97 | the read loop never joins |
| `Routing.JoinAll` | src/main.rs:68-70 | the `for` loop sends exactly the reference joins |
| `Routing.ReadLoop` | src/main.rs:72-97 | the loop's effects are those of the reference `Dispatch`, and it reports a failed read exactly when one occurred |
| `Routing.RunIrc` | src/main.rs:67-98 | the joins come first, one per channel in order, then the effects of the lines, none of them a join; stops exactly on a failed read |
| `Pipeline.CommandTextRouted` | src/main.rs:79-88 | a `#` chat text whose remainder has no outer whitespace reaches the processor unchanged |
| `Pipeline.SetCommandRouted` | src/main.rs:79-88 | for a non-empty text that does not end with whitespace, `#set <match> <text>` reaches the processor as `set <match> <text>` |
| `Pipeline.RouteExample` | src/main.rs:79-88 | chat text `#set !hi hello there` reaches the processor as `set !hi hello there` |
| `Pipeline.ChatLineBroadcast` | src/main.rs:73-95 | a relayed chat line whose message does not start with `#` (and holds no ` :`, with a channel without `#` and a prefix leaving the pattern no other `!` or `@`) is sent to the update server as the rendering of its user, channel and message, and nothing else happens |
| `Pipeline.SetLineHandled` | src/main.rs:73-88 | a relayed chat line `#set <match> <text>` whose text holds no ` :`, whose channel holds no `#` and whose prefix leaves the pattern no other `!` or `@` becomes exactly one command for the processor, from the right channel and user |
| `Pipeline.SetCommandStored` | commands/src/lib.rs:57-68 | the rule a `set` asks for is what the table then holds, and after a successful refresh the cache agrees |
| `Pipeline.CreateStored` | cold_data/src/lib.rs:72-86 | a write that changes rows and a refresh that works give `Ok(n)`, the new rule in the table, and a cache equal to the table |

## Left out

- TCP sockets, `BufReader`/`BufWriter` and flushing are not modelled. Writes append to a string; the outcome of each write and of the flush is an input.
- `SendLine`: a partial write is not modelled, because the code discards the byte count `write` returns. A successful write is taken to write the whole text.
- `read_line` is not modelled. Each read is an input: a line with its terminator, or a failure. At end of stream the real reader returns empty lines forever; the model has no such case.
- Actors and mailboxes (`do_send`, `send`, `SyncArbiter`) are not modelled. Their outcomes are inputs: whether a reply was delivered, whether a delivery failed.
- `RwLock` locking is not modelled. Its only visible outcome, a poisoned lock, is an input.
- The clones of `CommandCache` are modelled as one snapshot value, since they share one `Arc<RwLock<…>>`.
- `rand::thread_rng` is not modelled. The id it produces is an input of `WsUpdate.Connect`.
- The heartbeat `Instant` is not modelled, and neither are the `println!` logs.
- `Routing.Route`: the `{:?}` text of a passed-through message is a function parameter, because its escaping is the standard library's.
- MySQL and Diesel are not modelled. The table is assumed keyed by `(channel, match_expr)`, because the schema is not part of this model. The row count `REPLACE INTO` reports depends on the engine and is an input.
- `RemoveCommand` is modelled with the two fields its handler reads, because `cold_data/src/models.rs` does not declare it.
- The HTTP server, the static pages and the `/api/commands/` JSON route (`web_frontend/src/lib.rs`) are not modelled. Neither is the TOML/dotenv configuration (`src/config.rs`): the channels are an input of `Routing.RunIrc`.
- `main` wires the actors together with calls whose arity does not match their definitions (`DbConnectionPool::connect()` gets no cache). The model does not repair that wiring: `ColdData.Start` takes whatever cache it is given.
- `Routing.RunIrc`: when every read succeeds it returns after the last one. The real thread would wait for the next line.
- `IrcClient.RelayedPrivmsgDecodes`: promises nothing for a message containing ` :` or a channel containing `#`. The channel capture of the pattern is greedy, so such a line decodes with the channel running up to the last ` :` (see `IrcClient.DecodedMessageHasNoSeparator`).
- `IrcClient.PrivmsgLineReadsBack`: promises nothing for a channel containing a space. The greedy channel capture can produce one (`PRIVMSG #chan :hi :#set !x y` decodes to channel `chan :hi`), and the reply `PRIVMSG #chan :hi :@bob …` then reads back with target `#chan`.
- `Commands.SetTextParses`: promises nothing for a text ending in whitespace, or a match expression starting with whitespace, because `trim` removes that whitespace: `set !hi hello ` parses to ` hello`.
- `Pipeline.SetCommandRouted`: promises nothing for a text ending in whitespace. `#set !hi hello ` reaches the processor as `set !hi hello`, since the whole command text is trimmed.
- `Pipeline.SetLineHandled`: promises nothing for a `#set` text containing ` :`, such as `#set !hi hello :)`. That line decodes with channel `chan :#set !hi hello` and message `)`, so it goes to the update server rather than to the command processor.
- `WsUpdate.Connect`: ids are `usize` values below 2^64.
- `WsUpdate.OnWsMessage`: the binary payload of a websocket frame is a byte sequence that is never inspected.

=== FILE: cold_data.dfy ===
/**
 The store actor `DbConnectionPool` of `cold_data/src/lib.rs`: the handlers
 of `CreateCommand`, `RemoveCommand` and `ListCommands` over the table and
 the shared cache. Each handler writes first, refreshes the cache only when
 the statement reports changed rows, and only then returns.
 */
module ColdData {
  import opened Results
  import opened Storage
  import opened Models
  import CommandCache

  /** The table and the one snapshot all the pool's workers share. */
  datatype Db = Db(table: Table, cache: CommandCache.Cache)

  /** The cache holds exactly the listing of the table. */
  predicate Coherent(db: Db) {
    db.cache.snapshot == db.table
  }

  /**
   `DbConnectionPool::connect(command_cache)`: a pool over the existing table
   whose workers all share the cache the caller passed in, as it is.
   */
  function Start(table: Table, cache: CommandCache.Cache): (db: Db)
    ensures db.table == table && db.cache == cache
    ensures cache == CommandCache.New() ==> |db.cache.snapshot| == 0
  {
    Db(table, cache)
  }

  /** The outcome of executing one write statement: its row count, or a failure. */
  datatype Exec = Executed(rowCount: nat) | ExecFails

  /**
   `Handler<CreateCommand>`: check out a connection (`PoolError` if that
   fails), run `REPLACE INTO` (`QueryError` if it fails; the count it reports
   is engine-defined and taken as given), refresh the cache when the count is
   positive (its error is returned even though the row was written), and
   return the count.
   */
  function HandleCreate(db: Db, msg: CreateCommand, checkoutOk: bool, exec: Exec, refresh: CommandCache.RefreshFault)
    : (r: (Db, Result<nat, DbError>))
    ensures !checkoutOk ==> r == (db, Err(PoolError))
    ensures checkoutOk && exec.ExecFails? ==> r == (db, Err(QueryError))
    ensures checkoutOk && exec.Executed? ==>
      && r.0.table == ReplaceInto(db.table, RowOf(msg))
      && View(r.0.table) == View(db.table)[Key(msg.channel, msg.matchExpr) := msg.command]
    ensures checkoutOk && exec.Executed? && exec.rowCount == 0 ==> r.0.cache == db.cache && r.1 == Ok(0)
    ensures checkoutOk && exec.Executed? && exec.rowCount > 0 ==> (r.1.Ok? <==> refresh == CommandCache.NoFault)
    ensures checkoutOk && exec.Executed? && exec.rowCount > 0 && refresh != CommandCache.NoFault ==>
      r.0.cache == db.cache && r.1.Err?
    ensures r.1.Err? ==> r.0.cache == db.cache
    ensures r.1.Ok? ==> checkoutOk && exec.Executed? && r.1.value == exec.rowCount
    ensures r.1.Ok? && r.1.value > 0 ==> Coherent(r.0)
    ensures KeysUnique(db.table) ==> KeysUnique(r.0.table)
  {
    if !checkoutOk then (db, Err(PoolError))
    else if exec.ExecFails? then (db, Err(QueryError))
    else
      var table := ReplaceInto(db.table, RowOf(msg));
      AfterWrite(db.cache, table, exec.rowCount, refresh)
  }

  /**
   The tail shared by both write handlers: `if row_change > 0 { cache.update()? }`
   then `Ok(row_change)`.
   */
  function AfterWrite(cache: CommandCache.Cache, table: Table, rowChange: nat, refresh: CommandCache.RefreshFault)
    : (r: (Db, Result<nat, DbError>))
    ensures r.0.table == table
    ensures rowChange == 0 ==> r == (Db(table, cache), Ok(0))
    ensures rowChange > 0 ==> (r.1.Ok? <==> refresh == CommandCache.NoFault)
    ensures r.1.Ok? ==> r.1.value == rowChange
    ensures r.1.Err? ==> r.0.cache == cache
    ensures r.1.Ok? && r.1.value > 0 ==> Coherent(r.0)
  {
    if rowChange > 0 then
      var (cache', res) := CommandCache.Update(cache, table, refresh);
      match res
      case Err(e) => (Db(table, cache'), Err(e))
      case Ok(_) => (Db(table, cache'), Ok(rowChange))
    else (Db(table, cache), Ok(rowChange))
  }

  /**
   `Handler<RemoveCommand>`: check out a connection, delete the rows whose
   channel AND match expression both equal the request's, refresh the cache
   when any row went, and return the number deleted.
   */
  function HandleRemove(db: Db, msg: RemoveCommand, checkoutOk: bool, execOk: bool, refresh: CommandCache.RefreshFault)
    : (r: (Db, Result<nat, DbError>))
    ensures !checkoutOk ==> r == (db, Err(PoolError))
    ensures checkoutOk && !execOk ==> r == (db, Err(QueryError))
    ensures checkoutOk && execOk ==>
      && View(r.0.table) == View(db.table) - {Key(msg.channel, msg.matchExpr)}
      && (forall row :: row in r.0.table <==> row in db.table && KeyOf(row) != Key(msg.channel, msg.matchExpr))
    ensures checkoutOk && execOk && Key(msg.channel, msg.matchExpr) !in View(db.table) ==>
      r == (Db(r.0.table, db.cache), Ok(0))
    ensures checkoutOk && execOk && Key(msg.channel, msg.matchExpr) in View(db.table) ==>
      && (r.1.Ok? <==> refresh == CommandCache.NoFault)
      && (r.1.Ok? ==> r.1.value > 0)
    ensures r.1.Err? ==> r.0.cache == db.cache
    ensures r.1.Ok? && r.1.value > 0 ==> Key(msg.channel, msg.matchExpr) in View(db.table) && Coherent(r.0)
    ensures r.1.Ok? ==> r.1.value == |db.table| - |r.0.table|
    ensures KeysUnique(db.table) ==> KeysUnique(r.0.table)
  {
    if !checkoutOk then (db, Err(PoolError))
    else if !execOk then (db, Err(QueryError))
    else
      var (table, deleted) := DeleteWhere(db.table, Key(msg.channel, msg.matchExpr));
      AfterWrite(db.cache, table, deleted, refresh)
  }

  /** `Handler<ListCommands>`: every row, in order; nothing changes. */
  function HandleList(db: Db, checkoutOk: bool, loadOk: bool): (r: Result<seq<Rule>, DbError>)
    ensures r.Ok? <==> checkoutOk && loadOk
    ensures r.Ok? ==> View(r.value) == View(db.table) && |r.value| == |db.table|
    ensures r.Ok? ==> forall row :: row in r.value <==> row in db.table
    ensures !checkoutOk ==> r == Err(PoolError)
    ensures checkoutOk && !loadOk ==> r == Err(QueryError)
  {
    if !checkoutOk then Err(PoolError)
    else if !loadOk then Err(QueryError)
    else Ok(db.table)
  }
}

=== FILE: command_cache.dfy ===
/**
 `CommandCache` of `cold_data/src/cache.rs`: one shared snapshot of the rule
 table behind an `Arc<RwLock<..>>`. Every clone of the cache points at the
 same snapshot, so the model keeps a single snapshot value; the outcomes of
 the connection checkout, the load and the lock are explicit inputs.
 */
module CommandCache {
  import opened Results
  import opened Storage
  import opened Models

  /** `CommandCacheInner`: the rows last loaded. */
  datatype Cache = Cache(snapshot: seq<Rule>)

  /** `CommandCache::new`: nothing loaded yet. */
  function New(): (c: Cache)
    ensures |c.snapshot| == 0
  {
    Cache([])
  }

  /** Where a synchronous refresh can fail. */
  datatype RefreshFault = NoFault | CheckoutFails | LoadFails | LockPoisoned

  /**
   `update`: check out a connection, load every row, take the write lock,
   replace the snapshot wholesale. The first failure is returned and leaves
   the snapshot as it was.
   */
  function Update(c: Cache, table: Table, fault: RefreshFault): (r: (Cache, Result<(), DbError>))
    ensures r.1.Ok? <==> fault == NoFault
    ensures r.1.Ok? ==> r.0.snapshot == table
    ensures r.1.Err? ==> r.0 == c
    ensures fault == CheckoutFails ==> r.1 == Err(PoolError)
    ensures fault == LoadFails ==> r.1 == Err(QueryError)
    ensures fault == LockPoisoned ==> r.1 == Err(WriterError)
  {
    match fault
    case CheckoutFails => (c, Err(PoolError))
    case LoadFails => (c, Err(QueryError))
    case LockPoisoned => (c, Err(WriterError))
    case NoFault => (Cache(table), Ok(()))
  }

  /** What comes back from sending `ListCommands` to the store actor. */
  datatype ListReply = Listed(result: Result<seq<Rule>, DbError>) | ListMailboxError

  /**
   `update_async`: once the listing comes back, take the write lock (a
   poisoned lock is the only error) and replace the snapshot only when the
   listing was delivered and succeeded; any other outcome keeps the stale
   snapshot and still reports success.
   */
  function UpdateAsync(c: Cache, reply: ListReply, lockOk: bool): (r: (Cache, Result<(), DbError>))
    ensures r.1.Err? <==> !lockOk
    ensures r.1.Err? ==> r.1.error == WriterError
    ensures r.0 != c ==> lockOk && reply.Listed? && reply.result.Ok?
    ensures lockOk && reply.Listed? && reply.result.Ok? ==> r.0.snapshot == reply.result.value
  {
    if !lockOk then (c, Err(WriterError))
    else if reply.Listed? && reply.result.Ok? then (Cache(reply.result.value), Ok(()))
    else (c, Ok(()))
  }
}

=== FILE: commands.dfy ===
/**
 The command processor of `commands/src/lib.rs`: `Handler<MetaCommand>`
 splits the text of a `#`-command into a verb and the rest, handles only the
 verb `set`, asks the store for a `CreateCommand`, and picks the reply line
 from the store's answer.
 */
module Commands {
  import opened Results
  import opened Text
  import opened Models
  import IrcClient

  /** A chat command with its `#` already stripped. */
  datatype MetaCommand = MetaCommand(channel: string, user: string, message: string)

  /** What the text asks for: nothing, a malformed `set`, or a rule. */
  datatype Parsed = Ignored | Usage | Set(matchExpr: string, command: string)

  /**
   The parsing half of `handle`: the verb is the text before the first
   space; for `set`, the rest is trimmed and split at ITS first space into
   the match expression and the command text, which keeps that space.
   */
  function Parse(message: string): (p: Parsed)
    ensures p != Ignored <==> |message| >= 4 && message[..4] == "set "
    ensures p == Usage <==> p != Ignored && ' ' !in Trim(message[3..])
    ensures p.Set? ==>
      && Trim(message[3..]) == p.matchExpr + p.command
      && ' ' !in p.matchExpr
      && |p.command| > 0 && p.command[0] == ' '
  {
    VerbIsSet(message);
    match Find(message, ' ')
    case None => Ignored
    case Some(i) =>
      var verb := message[..i];
      var rest := Trim(message[i..]);
      if verb != "set" then Ignored
      else
        match Find(rest, ' ')
        case None => Usage
        case Some(k) =>
          assert rest == rest[..k] + rest[k..];
          Set(rest[..k], rest[k..])
  }

  /** Unfolds `Parse` for a text whose verb is `set` and whose rest holds a space. */
  lemma ParseSet(message: string, i: nat, rest: string, k: nat)
    requires Find(message, ' ') == Some(i) && message[..i] == "set"
    requires Trim(message[i..]) == rest && Find(rest, ' ') == Some(k)
    ensures Parse(message) == Set(rest[..k], rest[k..])
  {
  }

  /** The text before the first space is `set` exactly when the text starts with `set `. */
  lemma VerbIsSet(message: string)
    ensures (Find(message, ' ').Some? && message[..Find(message, ' ').value] == "set")
        <==> (|message| >= 4 && message[..4] == "set ")
  {
    var f := Find(message, ' ');
    if f.Some? && message[..f.value] == "set" {
      SetVerbStarts(message, f.value);
    }
    if |message| >= 4 && message[..4] == "set " {
      SetStartIsVerb(message);
    }
  }

  /** A text whose first space follows `set` starts with `set `. */
  lemma SetVerbStarts(message: string, i: nat)
    requires i < |message| && message[i] == ' ' && message[..i] == "set"
    ensures |message| >= 4 && message[..4] == "set "
  {
    assert |message[..i]| == 3;
    assert message[..4] == message[..3] + [message[3]];
  }

  lemma SetStartIsVerb(message: string)
    requires |message| >= 4 && message[..4] == "set "
    ensures Find(message, ' ') == Some(3) && message[..3] == "set"
  {
    assert message[..3] == message[..4][..3] && message[3] == message[..4][3];
    FindAt(message, ' ', 3);
  }

  /** `#set <match> <text>` as a user types it, after routing strips the `#`. */
  function SetText(matchExpr: string, text: string): string {
    "set " + matchExpr + " " + text
  }

  /**
   Parsing inverts `SetText` for every match expression without spaces
   that does not start with whitespace, and every text that does not end
   with whitespace; the stored command keeps the space before the text.
   */
  lemma SetTextParses(matchExpr: string, text: string)
    requires |matchExpr| > 0 && ' ' !in matchExpr && !IsWhitespace(matchExpr[0])
    requires |text| > 0 && !IsWhitespace(text[|text| - 1])
    ensures Parse(SetText(matchExpr, text)) == Set(matchExpr, " " + text)
  {
    var body := matchExpr + " " + text;
    SetTextPieces(matchExpr, text, body);
    SetTextRest(matchExpr, text, body);
    ParseSet(SetText(matchExpr, text), 3, body, |matchExpr|);
  }

  /** The pieces `Parse` cuts out of a `SetText`. */
  lemma SetTextPieces(matchExpr: string, text: string, body: string)
    requires |matchExpr| > 0 && ' ' !in matchExpr && !IsWhitespace(matchExpr[0])
    requires |text| > 0 && !IsWhitespace(text[|text| - 1])
    requires body == matchExpr + " " + text
    ensures Find(SetText(matchExpr, text), ' ') == Some(3)
    ensures SetText(matchExpr, text)[..3] == "set"
    ensures Find(body, ' ') == Some(|matchExpr|)
    ensures body[..|matchExpr|] == matchExpr && body[|matchExpr|..] == " " + text
  {
    var msg := SetText(matchExpr, text);
    assert msg == "set " + body;
    ConcatSlices("set ", body);
    SetStartIsVerb(msg);
    assert body == matchExpr + (" " + text);
    ConcatSlices(matchExpr, " " + text);
    assert body[|matchExpr|] == (" " + text)[0];
    FindAt(body, ' ', |matchExpr|);
  }

  /** What `Parse` finds after `set` in `set <match> <text>`: the trimmed rest is `<match> <text>`. */
  lemma SetTextRest(matchExpr: string, text: string, body: string)
    requires |matchExpr| > 0 && !IsWhitespace(matchExpr[0])
    requires |text| > 0 && !IsWhitespace(text[|text| - 1])
    requires body == matchExpr + " " + text
    ensures Trim(SetText(matchExpr, text)[3..]) == body
  {
    var rest := SetText(matchExpr, text)[3..];
    assert rest == " " + body;
    assert body[0] == matchExpr[0] && body[|body| - 1] == text[|text| - 1];
    TrimAfterSpace(rest, body);
  }

  /** The text of the usage reply. */
  function UsageReply(user: string): string {
    "@" + user + " set command should be in the form: \"#set match command\"!"
  }

  /** The text of the success reply. */
  function SetReply(user: string): string {
    "@" + user + " Command has been set!"
  }

  /** The text of the failure reply. */
  function FailReply(user: string): string {
    "@" + user + " Command could not be set, ask the bot owner to check logs!"
  }

  /** What comes back from sending a `CreateCommand` to the store actor. */
  datatype StoreReply = Delivered(result: Result<nat, DbError>) | StoreMailboxError

  /** The effects of one `handle` call and the string it returns. */
  datatype Outcome = Outcome(request: Option<CreateCommand>, reply: Option<IrcClient.WriterMessage>, returned: string)

  /**
   `Handler<MetaCommand>::handle`. `store` is the answer the store would
   give to the request; it is consulted only when a request is sent.
   */
  function Handle(cmd: MetaCommand, store: StoreReply): (o: Outcome)
    ensures o.returned == ""
    ensures o.request.Some? <==> Parse(cmd.message).Set?
    ensures o.request.Some? ==>
      && o.request.value.channel == cmd.channel
      && o.request.value.matchExpr == Parse(cmd.message).matchExpr
      && o.request.value.command == Parse(cmd.message).command
    ensures o.reply.Some? ==> o.reply.value.SendChannelMessage? && o.reply.value.channel == cmd.channel
    ensures Parse(cmd.message) == Ignored ==> o.reply.None?
    ensures Parse(cmd.message) == Usage ==> o.reply == Some(IrcClient.SendChannelMessage(cmd.channel, UsageReply(cmd.user)))
    ensures o.request.Some? && store.StoreMailboxError? ==> o.reply.None?
    ensures o.request.Some? && store.Delivered? && store.result.Ok? ==>
      o.reply == Some(IrcClient.SendChannelMessage(cmd.channel, SetReply(cmd.user)))
    ensures o.request.Some? && store.Delivered? && store.result.Err? ==>
      o.reply == Some(IrcClient.SendChannelMessage(cmd.channel, FailReply(cmd.user)))
  {
    match Parse(cmd.message)
    case Ignored => Outcome(None, None, "")
    case Usage => Outcome(None, Some(IrcClient.SendChannelMessage(cmd.channel, UsageReply(cmd.user))), "")
    case Set(matchExpr, command) =>
      var request := CreateCommand(cmd.channel, matchExpr, command);
      var reply := match store
        case StoreMailboxError => None
        case Delivered(Ok(_)) => Some(IrcClient.SendChannelMessage(cmd.channel, SetReply(cmd.user)))
        case Delivered(Err(_)) => Some(IrcClient.SendChannelMessage(cmd.channel, FailReply(cmd.user)));
      Outcome(Some(request), reply, "")
  }

  /** Without a space in the text nothing is sent at all. */
  lemma NoSpaceNoEffect(cmd: MetaCommand, store: StoreReply)
    requires ' ' !in cmd.message
    ensures Handle(cmd, store) == Outcome(None, None, "")
  {
  }

  /**
   A well-formed `set` command asks the store to save exactly the typed
   rule, and the reply follows the store's answer.
   */
  lemma SetTextHandled(channel: string, user: string, matchExpr: string, text: string, store: StoreReply)
    requires |matchExpr| > 0 && ' ' !in matchExpr && !IsWhitespace(matchExpr[0])
    requires |text| > 0 && !IsWhitespace(text[|text| - 1])
    ensures Handle(MetaCommand(channel, user, SetText(matchExpr, text)), store).request
         == Some(CreateCommand(channel, matchExpr, " " + text))
    ensures store.Delivered? && store.result.Ok? ==>
      Handle(MetaCommand(channel, user, SetText(matchExpr, text)), store).reply
        == Some(IrcClient.SendChannelMessage(channel, SetReply(user)))
  {
    SetTextParses(matchExpr, text);
  }

  /** A verb other than `set`, such as `remove`, does nothing. */
  lemma OtherVerbIgnored(cmd: MetaCommand, verb: string, rest: string, store: StoreReply)
    requires cmd.message == verb + " " + rest && ' ' !in verb && verb != "set"
    ensures Handle(cmd, store) == Outcome(None, None, "")
  {
    var m := cmd.message;
    assert m[..|verb|] == verb && m[|verb|] == ' ';
    FindAt(m, ' ', |verb|);
    VerbIsSet(m);
  }

  /** `set` followed by a match expression but no command text gets the usage reply and no store request. */
  lemma UsageWithoutCommand(cmd: MetaCommand, matchExpr: string, store: StoreReply)
    requires cmd.message == "set " + matchExpr
    requires |matchExpr| > 0 && ' ' !in matchExpr
    requires !IsWhitespace(matchExpr[0]) && !IsWhitespace(matchExpr[|matchExpr| - 1])
    ensures Handle(cmd, store) == Outcome(None, Some(IrcClient.SendChannelMessage(cmd.channel, UsageReply(cmd.user))), "")
  {
    var msg := cmd.message;
    ConcatSlices("set ", matchExpr);
    assert msg[3..] == " " + matchExpr;
    TrimAfterSpace(msg[3..], matchExpr);
  }

  /**
   `#set !hi` alone gets the usage reply and no store request. The command is
   a parameter fixed to the literal; `UsageWithoutCommand` does the work.
   */
  lemma UsageExample(cmd: MetaCommand, store: StoreReply)
    requires cmd == MetaCommand("mychan", "alice", "set !hi")
    ensures Handle(cmd, store) == Outcome(None, Some(IrcClient.SendChannelMessage("mychan", UsageReply("alice"))), "")
  {
    assert cmd.message == "set " + "!hi";
    UsageWithoutCommand(cmd, "!hi", store);
  }
}

=== FILE: irc_client.dfy ===
/**
 The IRC line codec of `irc/src/client.rs`: the decoder behind `next_message`
 (one anchored regular expression) and the encoders behind `send_line`,
 `join`, `SendChannelMessage` and `IrcClientBuilder::connect`.

 The decoder follows the regular expression

     ^:(?P<user>.*)!.*@.*.tmi.twitch.tv PRIVMSG #(?P<channel>.*) :(?P<message>.*)\r\n$

 under Rust `regex` semantics: `.` is any character but `\n`, the three
 unescaped dots of the host name match any such character, and the captures
 are those of the leftmost-first (backtracking-priority) match, in which each
 greedy `.*` is as long as the rest of the pattern allows, earlier groups first.
 */
module IrcClient {
  import opened Results
  import opened Text

  /** `IrcMessage`: what `next_message` makes of one raw line. */
  datatype IrcMessage =
    | ChannelMessage(user: string, channel: string, message: string)
    | Unknown(line: string)

  datatype IrcError = ConnectionFailed | ReadFailed | WriteFailed

  // ---------------------------------------------------------------------------
  // Decoding
  // ---------------------------------------------------------------------------

  /** Length of the fixed part `.tmi.twitch.tv PRIVMSG #` that ends the host. */
  const MarkerLength: nat := 24

  /** `x tmi y twitch z tv PRIVMSG #` for three wildcard characters. */
  function MarkerText(x: char, y: char, z: char): (r: string)
    ensures |r| == MarkerLength
  {
    [x] + "tmi" + [y] + "twitch" + [z] + "tv PRIVMSG #"
  }

  /** The host-name marker, with its three unescaped dots, occurs at `q`. */
  predicate MarkerAt(line: string, q: int) {
    && 0 <= q && q + MarkerLength <= |line|
    && line[q] != '\n' && line[q + 1..q + 4] == "tmi"
    && line[q + 4] != '\n' && line[q + 5..q + 11] == "twitch"
    && line[q + 11] != '\n' && line[q + 12..q + 24] == "tv PRIVMSG #"
  }

  /** The separator ` :` between channel and message occurs at `s`. */
  predicate SeparatorAt(line: string, s: int) {
    0 <= s && s + 2 <= |line| && line[s] == ' ' && line[s + 1] == ':'
  }

  /**
   The anchors and the newline rule: the line starts with `:`, ends with
   exactly `\r\n`, and has no other `\n` (no `.` can consume one).
   */
  predicate Framed(line: string) {
    && |line| >= 3
    && line[0] == ':'
    && line[|line| - 2..] == "\r\n"
    && '\n' !in line[..|line| - 2]
  }

  /**
   The positions at which a match puts the `!`, the `@`, the host marker and
   the ` :` separator; everything between them is captured by some `.*`.
   */
  datatype Split = Split(bang: nat, at: nat, host: nat, sep: nat)

  /** The pattern matches `line` with its captures and wildcards placed as `sp` says. */
  predicate ValidSplit(line: string, sp: Split) {
    && Framed(line)
    && 1 <= sp.bang < sp.at < sp.host
    && sp.host + MarkerLength <= sp.sep
    && sp.sep + 2 <= |line| - 2
    && line[sp.bang] == '!'
    && line[sp.at] == '@'
    && MarkerAt(line, sp.host)
    && SeparatorAt(line, sp.sep)
  }

  /** Every component of `a` is at least the matching component of `b`. */
  predicate Dominates(a: Split, b: Split) {
    a.bang >= b.bang && a.at >= b.at && a.host >= b.host && a.sep >= b.sep
  }

  /** The backtracking order: the split whose earlier `.*` is longer wins. */
  predicate PriorTo(a: Split, b: Split) {
    || a.bang > b.bang
    || (a.bang == b.bang && a.at > b.at)
    || (a.bang == b.bang && a.at == b.at && a.host > b.host)
    || (a.bang == b.bang && a.at == b.at && a.host == b.host && a.sep >= b.sep)
  }

  /** The last separator that leaves room for the closing `\r\n`. */
  function LastSeparator(line: string): (r: Option<nat>)
    ensures r.Some? ==> r.value + 4 <= |line| && SeparatorAt(line, r.value)
    ensures forall s :: 0 <= s && s + 4 <= |line| && SeparatorAt(line, s) ==> r.Some? && s <= r.value
  {
    var isSep := (s: nat) => SeparatorAt(line, s);
    var r := LastWhere(isSep, 0, if |line| < 3 then 0 else |line| - 3);
    assert forall s :: 0 <= s && s + 4 <= |line| && SeparatorAt(line, s) ==> isSep(s);
    r
  }

  /** The last host marker ending at or before `limit`. */
  function LastMarker(line: string, limit: nat): (r: Option<nat>)
    ensures r.Some? ==> r.value + MarkerLength <= limit && MarkerAt(line, r.value)
    ensures forall q :: 0 <= q && q + MarkerLength <= limit && MarkerAt(line, q) ==> r.Some? && q <= r.value
  {
    if limit < MarkerLength then None
    else
      var isMarker := (q: nat) => MarkerAt(line, q);
      var r := LastWhere(isMarker, 0, limit - MarkerLength + 1);
      assert forall q :: 0 <= q && q + MarkerLength <= limit && MarkerAt(line, q) ==> isMarker(q);
      r
  }

  /** The last occurrence of `c` at an index in `[lo, hi)`. */
  function LastChar(line: string, c: char, lo: nat, hi: nat): (r: Option<nat>)
    ensures r.Some? ==> lo <= r.value < hi && r.value < |line| && line[r.value] == c
    ensures forall k :: lo <= k < hi && k < |line| && line[k] == c ==> r.Some? && k <= r.value
  {
    var isC := (k: nat) => k < |line| && line[k] == c;
    var r := LastWhere(isC, lo, hi);
    assert forall k :: lo <= k < hi && k < |line| && line[k] == c ==> isC(k);
    r
  }

  /**
   The split a leftmost-first regex engine reports: the last separator, then
   the last marker that still leaves room for it, then the last `@` before
   that marker, then the last `!` before that `@`. It dominates every other
   split, so in particular it comes first in the backtracking order.
   */
  function FindSplit(line: string): (r: Option<Split>)
    ensures r.Some? ==> ValidSplit(line, r.value)
    ensures r.Some? ==> forall sp :: ValidSplit(line, sp) ==> Dominates(r.value, sp)
    ensures r.Some? ==> forall sp :: ValidSplit(line, sp) ==> PriorTo(r.value, sp)
    ensures r.None? ==> forall sp :: !ValidSplit(line, sp)
    ensures r.Some? ==> forall s :: r.value.sep < s && s + 4 <= |line| ==> !SeparatorAt(line, s)
  {
    if !Framed(line) then None
    else
      match LastSeparator(line)
      case None => None
      case Some(s) =>
        match LastMarker(line, s)
        case None => None
        case Some(q) =>
          match LastChar(line, '@', 0, q)
          case None => None
          case Some(a) =>
            match LastChar(line, '!', 1, a)
            case None => None
            case Some(b) => Some(Split(b, a, q, s))
  }

  /** The three captures of a split. */
  function Captures(line: string, sp: Split): (m: IrcMessage)
    requires ValidSplit(line, sp)
    ensures m.ChannelMessage?
  {
    ChannelMessage(line[1..sp.bang], line[sp.host + MarkerLength..sp.sep], line[sp.sep + 2..|line| - 2])
  }

  /** `next_message` on a line already read: the captures, or the line itself. */
  function Decode(line: string): (m: IrcMessage)
    ensures m.Unknown? ==> m.line == line
    ensures m.ChannelMessage? ==> Framed(line)
    ensures m.ChannelMessage? <==> exists sp :: ValidSplit(line, sp)
  {
    match FindSplit(line)
    case Some(sp) => Captures(line, sp)
    case None => Unknown(line)
  }

  /** What one `read_line` on the socket gives: the line with its terminator, or an I/O error. */
  datatype ReadResult = LineRead(line: string) | ReadFails

  /**
   `next_message`: a read failure is `ReadFailed`; a line that was read is
   decoded, and a line the pattern rejects comes back whole as `Unknown`.
   */
  function NextMessage(read: ReadResult): (r: Result<IrcMessage, IrcError>)
    ensures r.Err? <==> read.ReadFails?
    ensures r.Err? ==> r.error == ReadFailed
    ensures r.Ok? && r.value.Unknown? ==> r.value.line == read.line
    ensures r.Ok? && r.value.ChannelMessage? ==> exists sp :: ValidSplit(read.line, sp)
    ensures r.Ok? && (exists sp :: ValidSplit(read.line, sp)) ==> r.value.ChannelMessage?
    ensures r.Ok? && r.value.ChannelMessage? ==>
      Decomposes(read.line, r.value.user, r.value.channel, r.value.message)
  {
    match read
    case ReadFails => Err(ReadFailed)
    case LineRead(line) =>
      if Decode(line).ChannelMessage? then
        DecodeSound(line);
        Ok(Decode(line))
      else Ok(Decode(line))
  }

  /** The line the pattern describes, one piece per regex term. */
  function Wire(u: string, a: string, h: string, x: char, y: char, z: char, c: string, m: string): string {
    ":" + u + "!" + a + "@" + h + MarkerText(x, y, z) + c + " :" + m + "\r\n"
  }

  /** What `.` may consume: anything but a line feed. */
  predicate NoNewline(s: string) {
    '\n' !in s
  }

  /**
   The regular expression as a relation: `line` matches with captures
   `user`, `channel` and `message` for SOME choice of the uncaptured parts.
   */
  ghost predicate Decomposes(line: string, user: string, channel: string, message: string) {
    exists a, h, x, y, z ::
      && line == Wire(user, a, h, x, y, z, channel, message)
      && NoNewline(user) && NoNewline(a) && NoNewline(h)
      && x != '\n' && y != '\n' && z != '\n'
      && NoNewline(channel) && NoNewline(message)
  }

  /** A slice of a line-feed-free text is line-feed free. */
  lemma NoNewlineSlice(s: string, i: nat, j: nat)
    requires NoNewline(s) && i <= j <= |s|
    ensures NoNewline(s[i..j])
  {
  }

  /** A valid split cuts the line into the pieces of `Wire`. */
  lemma SplitIsWire(L: string, sp: Split)
    requires ValidSplit(L, sp)
    ensures L == Wire(L[1..sp.bang], L[sp.bang + 1..sp.at], L[sp.at + 1..sp.host],
                      L[sp.host], L[sp.host + 4], L[sp.host + 11],
                      L[sp.host + MarkerLength..sp.sep], L[sp.sep + 2..|L| - 2])
  {
    var q := sp.host + MarkerLength;
    SplitHead(L, sp);
    SplitTail(L, sp);
    assert L == L[..q] + L[q..];
    WireHalves(L[1..sp.bang], L[sp.bang + 1..sp.at], L[sp.at + 1..sp.host],
               L[sp.host], L[sp.host + 4], L[sp.host + 11],
               L[sp.host + MarkerLength..sp.sep], L[sp.sep + 2..|L| - 2]);
  }

  /** The text up to the end of the marker, piece by piece. */
  lemma SplitHead(L: string, sp: Split)
    requires ValidSplit(L, sp)
    ensures L[..sp.host + MarkerLength]
         == ":" + L[1..sp.bang] + "!" + L[sp.bang + 1..sp.at] + "@" + L[sp.at + 1..sp.host]
            + MarkerText(L[sp.host], L[sp.host + 4], L[sp.host + 11])
  {
    var b, at, q := sp.bang, sp.at, sp.host;
    Extend(L, 0, 1, ":");
    Extend(L, 1, b, L[1..b]);
    Extend(L, b, b + 1, "!");
    Extend(L, b + 1, at, L[b + 1..at]);
    Extend(L, at, at + 1, "@");
    Extend(L, at + 1, q, L[at + 1..q]);
    MarkerAtText(L, q);
    Extend(L, q, q + MarkerLength, MarkerText(L[q], L[q + 4], L[q + 11]));
  }

  /** A prefix grows by the piece that follows it. */
  lemma Extend(L: string, j: nat, k: nat, piece: string)
    requires j <= k <= |L| && L[j..k] == piece
    ensures L[..k] == L[..j] + piece
  {
    assert L[..k] == L[..j] + L[j..k];
  }

  /** The text of a marker found at `q`. */
  lemma MarkerAtText(L: string, q: int)
    requires MarkerAt(L, q)
    ensures L[q..q + MarkerLength] == MarkerText(L[q], L[q + 4], L[q + 11])
  {
    var t := L[q..q + MarkerLength];
    var r := MarkerText(L[q], L[q + 4], L[q + 11]);
    forall k | 0 <= k < MarkerLength ensures t[k] == r[k] {
      if 1 <= k < 4 {
        assert t[k] == L[q + 1..q + 4][k - 1];
      } else if 5 <= k < 11 {
        assert t[k] == L[q + 5..q + 11][k - 5];
      } else if 12 <= k {
        assert t[k] == L[q + 12..q + 24][k - 12];
      }
    }
  }

  /** The text after the marker, piece by piece. */
  lemma SplitTail(L: string, sp: Split)
    requires ValidSplit(L, sp)
    ensures L[sp.host + MarkerLength..] == L[sp.host + MarkerLength..sp.sep] + " :" + L[sp.sep + 2..|L| - 2] + "\r\n"
  {
    var n, q, s := |L|, sp.host + MarkerLength, sp.sep;
    var T := L[q..];
    assert T[..s - q] == L[q..s];
    assert T[s - q..s - q + 2] == " :";
    assert T[s - q + 2..n - q - 2] == L[s + 2..n - 2];
    assert T[n - q - 2..] == "\r\n";
    assert T == T[..s - q] + T[s - q..s - q + 2] + T[s - q + 2..n - q - 2] + T[n - q - 2..];
  }

  /** The pieces of a valid split contain no line feed. */
  lemma SplitNoNewline(L: string, sp: Split)
    requires ValidSplit(L, sp)
    ensures NoNewline(L[1..sp.bang]) && NoNewline(L[sp.bang + 1..sp.at]) && NoNewline(L[sp.at + 1..sp.host])
    ensures NoNewline(L[sp.host + MarkerLength..sp.sep]) && NoNewline(L[sp.sep + 2..|L| - 2])
  {
    var n := |L|;
    var b, at, q, s := sp.bang, sp.at, sp.host, sp.sep;
    var body := L[..n - 2];
    assert body[1..b] == L[1..b] && body[b + 1..at] == L[b + 1..at] && body[at + 1..q] == L[at + 1..q];
    assert body[q + MarkerLength..s] == L[q + MarkerLength..s] && body[s + 2..] == L[s + 2..n - 2];
    NoNewlineSlice(body, 1, b);
    NoNewlineSlice(body, b + 1, at);
    NoNewlineSlice(body, at + 1, q);
    NoNewlineSlice(body, q + MarkerLength, s);
    NoNewlineSlice(body, s + 2, n - 2);
  }

  /** Every valid split yields a decomposition with its captures. */
  lemma SplitDecomposes(L: string, sp: Split)
    requires ValidSplit(L, sp)
    ensures Decomposes(L, Captures(L, sp).user, Captures(L, sp).channel, Captures(L, sp).message)
  {
    SplitIsWire(L, sp);
    SplitNoNewline(L, sp);
    var u, c, m := L[1..sp.bang], L[sp.host + MarkerLength..sp.sep], L[sp.sep + 2..|L| - 2];
    var a, h := L[sp.bang + 1..sp.at], L[sp.at + 1..sp.host];
    var x, y, z := L[sp.host], L[sp.host + 4], L[sp.host + 11];
    assert x != '\n' && y != '\n' && z != '\n';
    assert Captures(L, sp) == ChannelMessage(u, c, m);
    WireDecomposes(u, a, h, x, y, z, c, m);
  }

  /** The pieces of `Wire` witness the decomposition. */
  lemma WireDecomposes(u: string, a: string, h: string, x: char, y: char, z: char, c: string, m: string)
    requires NoNewline(u) && NoNewline(a) && NoNewline(h) && NoNewline(c) && NoNewline(m)
    requires x != '\n' && y != '\n' && z != '\n'
    ensures Decomposes(Wire(u, a, h, x, y, z, c, m), u, c, m)
  {
  }

  /** Soundness: whatever `Decode` captures is a decomposition of the line. */
  lemma DecodeSound(line: string)
    requires Decode(line).ChannelMessage?
    ensures Decomposes(line, Decode(line).user, Decode(line).channel, Decode(line).message)
  {
    SplitDecomposes(line, FindSplit(line).value);
  }

  /** The split that a decomposition induces. */
  function WireSplit(u: string, a: string, h: string, c: string): Split {
    var b := 1 + |u|;
    var at := b + 1 + |a|;
    var q := at + 1 + |h|;
    Split(b, at, q, q + MarkerLength + |c|)
  }

  /** The marker text sits at the position of the marker. */
  lemma MarkerTextIsMarker(x: char, y: char, z: char, pre: string, post: string)
    requires x != '\n' && y != '\n' && z != '\n'
    ensures MarkerAt(pre + MarkerText(x, y, z) + post, |pre|)
  {
    var L := pre + MarkerText(x, y, z) + post;
    var q := |pre|;
    assert L[q..q + MarkerLength] == MarkerText(x, y, z);
    assert MarkerText(x, y, z)[1..4] == "tmi";
    assert MarkerText(x, y, z)[5..11] == "twitch";
    assert MarkerText(x, y, z)[12..24] == "tv PRIVMSG #";
  }

  /** Every decomposition is a valid split with the same captures. */
  lemma WireIsSplit(u: string, a: string, h: string, x: char, y: char, z: char, c: string, m: string)
    requires NoNewline(u) && NoNewline(a) && NoNewline(h) && NoNewline(c) && NoNewline(m)
    requires x != '\n' && y != '\n' && z != '\n'
    ensures ValidSplit(Wire(u, a, h, x, y, z, c, m), WireSplit(u, a, h, c))
    ensures Captures(Wire(u, a, h, x, y, z, c, m), WireSplit(u, a, h, c)) == ChannelMessage(u, c, m)
    ensures var sp := WireSplit(u, a, h, c); var W := Wire(u, a, h, x, y, z, c, m);
      W[sp.bang + 1..sp.at] == a && W[sp.at + 1..sp.host] == h
  {
    var H := ":" + u + "!" + a + "@" + h + MarkerText(x, y, z);
    WireHalves(u, a, h, x, y, z, c, m);
    WireSplitValid(H, u, a, h, x, y, z, c, m);
  }

  /** The split of `Wire` at its pieces, stated over the line cut into head and tail. */
  lemma WireSplitValid(H: string, u: string, a: string, h: string, x: char, y: char, z: char, c: string, m: string)
    requires NoNewline(u) && NoNewline(a) && NoNewline(h) && NoNewline(c) && NoNewline(m)
    requires x != '\n' && y != '\n' && z != '\n'
    requires H == ":" + u + "!" + a + "@" + h + MarkerText(x, y, z)
    ensures var W := H + (c + " :" + m + "\r\n"); var sp := WireSplit(u, a, h, c);
      && ValidSplit(W, sp)
      && Captures(W, sp) == ChannelMessage(u, c, m)
      && W[sp.bang + 1..sp.at] == a && W[sp.at + 1..sp.host] == h
  {
    var T := c + " :" + m + "\r\n";
    WireHead(u, a, h, x, y, z, T);
    WireTail(H, c, m);
    assert NoNewline(MarkerText(x, y, z));
    assert NoNewline(H);
    WireBody(H, c, m);
  }

  /** Where the pieces before the channel sit in a line that starts with them. */
  lemma WireHead(u: string, a: string, h: string, x: char, y: char, z: char, T: string)
    requires x != '\n' && y != '\n' && z != '\n'
    ensures var W := ":" + u + "!" + a + "@" + h + MarkerText(x, y, z) + T;
      var b := 1 + |u|; var at := b + 1 + |a|; var q := at + 1 + |h|;
      && W[0] == ':' && W[1..b] == u && W[b] == '!' && W[b + 1..at] == a
      && W[at] == '@' && W[at + 1..q] == h && MarkerAt(W, q)
  {
    var pre := ":" + u + "!" + a + "@" + h;
    MarkerTextIsMarker(x, y, z, pre, T);
    var W := pre + MarkerText(x, y, z) + T;
    var b := 1 + |u|;
    var at := b + 1 + |a|;
    var q := at + 1 + |h|;
    assert W[..q] == pre;
    assert pre[1..b] == u && pre[b + 1..at] == a && pre[at + 1..q] == h;
  }

  /** Where the channel, the separator and the message sit after the marker. */
  lemma WireTail(H: string, c: string, m: string)
    ensures var W := H + (c + " :" + m + "\r\n"); var s := |H| + |c|;
      && W[|H|..s] == c && SeparatorAt(W, s) && W[s + 2..|W| - 2] == m && W[|W| - 2..] == "\r\n"
  {
    var T := c + " :" + m + "\r\n";
    var W := H + T;
    var s := |H| + |c|;
    assert W[|H|..] == T;
    assert T[..|c|] == c && T[|c| + 2..|T| - 2] == m && T[|T| - 2..] == "\r\n";
  }

  /** The line without its closing `\r\n`. */
  lemma WireBody(H: string, c: string, m: string)
    requires NoNewline(H) && NoNewline(c) && NoNewline(m)
    ensures var W := H + (c + " :" + m + "\r\n"); NoNewline(W[..|W| - 2])
  {
    var W := H + (c + " :" + m + "\r\n");
    assert W[..|W| - 2] == H + c + " :" + m;
  }

  /** Completeness: a line the regular expression matches is never `Unknown`. */
  lemma DecomposesDecodes(line: string, user: string, channel: string, message: string)
    requires Decomposes(line, user, channel, message)
    ensures Decode(line).ChannelMessage?
  {
    var a, h, x, y, z :| 
      && line == Wire(user, a, h, x, y, z, channel, message)
      && NoNewline(user) && NoNewline(a) && NoNewline(h)
      && x != '\n' && y != '\n' && z != '\n'
      && NoNewline(channel) && NoNewline(message);
    WireIsSplit(user, a, h, x, y, z, channel, message);
  }

  /** `s` contains the separator ` :` somewhere. */
  predicate HasSeparator(s: string) {
    exists k | 0 <= k < |s| :: SeparatorAt(s, k)
  }

  /**
   When the line is put together from parts that give the engine no other
   choice (no `!` in the ident, no `@` in the host, no `#` in the channel, no
   ` :` in the message), `Decode` recovers exactly the user, channel and
   message that went in, whatever the user name contains.
   */
  lemma {:induction false} WireDecodes(u: string, a: string, h: string, x: char, y: char, z: char, c: string, m: string)
    requires NoNewline(u) && NoNewline(a) && NoNewline(h) && NoNewline(c) && NoNewline(m)
    requires x != '\n' && y != '\n' && z != '\n'
    requires '!' !in a && '@' !in h && '#' !in c && !HasSeparator(m)
    ensures Decode(Wire(u, a, h, x, y, z, c, m)) == ChannelMessage(u, c, m)
  {
    var W := Wire(u, a, h, x, y, z, c, m);
    var sp0 := WireSplit(u, a, h, c);
    WireIsSplit(u, a, h, x, y, z, c, m);
    NoRivalSplit(W, sp0, FindSplit(W).value);
  }

  /**
   A valid split whose `.*` pieces after the user hold no alternative `!`,
   `@`, marker or separator is the only split that can dominate it.
   */
  lemma NoRivalSplit(L: string, sp0: Split, sp: Split)
    requires ValidSplit(L, sp0) && ValidSplit(L, sp) && Dominates(sp, sp0)
    requires '!' !in L[sp0.bang + 1..sp0.at] && '@' !in L[sp0.at + 1..sp0.host]
    requires '#' !in L[sp0.host + MarkerLength..sp0.sep] && !HasSeparator(L[sp0.sep + 2..|L| - 2])
    ensures sp == sp0
  {
    var c, m := L[sp0.host + MarkerLength..sp0.sep], L[sp0.sep + 2..|L| - 2];
    forall k | sp0.sep < k && k + 4 <= |L|
      ensures !SeparatorAt(L, k)
    {
      assert L[sp0.sep + 1] == ':';
      if k > sp0.sep + 1 {
        assert L[k] == m[k - sp0.sep - 2] && L[k + 1] == m[k - sp0.sep - 1];
        assert !SeparatorAt(m, k - sp0.sep - 2);
      }
    }
    forall q | sp0.host < q && q + MarkerLength <= sp0.sep
      ensures !MarkerAt(L, q)
    {
      assert L[q + 23] == c[q + 23 - sp0.host - MarkerLength];
    }
    forall k | sp0.at < k < sp0.host
      ensures L[k] != '@'
    {
      assert L[k] == L[sp0.at + 1..sp0.host][k - sp0.at - 1];
    }
    forall k | sp0.bang < k < sp0.at
      ensures L[k] != '!'
    {
      assert L[k] == L[sp0.bang + 1..sp0.at][k - sp0.bang - 1];
    }
  }

  /** No decoded field spans a line: user, channel and message hold no `\n`. */
  lemma DecodedFieldsSingleLine(line: string)
    requires Decode(line).ChannelMessage?
    ensures NoNewline(Decode(line).user) && NoNewline(Decode(line).channel) && NoNewline(Decode(line).message)
  {
    SplitNoNewline(line, FindSplit(line).value);
  }

  /**
   The channel capture is greedy, so every ` :` of the line before the
   closing `\r\n` is left of the message: the message never contains ` :`.
   */
  lemma DecodedMessageHasNoSeparator(line: string)
    requires Decode(line).ChannelMessage?
    ensures !HasSeparator(Decode(line).message)
  {
    var sp := FindSplit(line).value;
    var m := Decode(line).message;
    assert m == line[sp.sep + 2..|line| - 2];
    forall k | 0 <= k < |m|
      ensures !SeparatorAt(m, k)
    {
      if k + 1 < |m| {
        assert m[k] == line[sp.sep + 2 + k] && m[k + 1] == line[sp.sep + 3 + k];
        assert !SeparatorAt(line, sp.sep + 2 + k);
      }
    }
  }

  /** `Wire` as the text up to the marker followed by the text after it. */
  lemma WireHalves(u: string, a: string, h: string, x: char, y: char, z: char, c: string, m: string)
    ensures Wire(u, a, h, x, y, z, c, m)
         == (":" + u + "!" + a + "@" + h + MarkerText(x, y, z)) + (c + " :" + m + "\r\n")
  {
  }

  /** The example line, spelled as its regex pieces. */
  lemma ExampleIsWire()
    ensures ":alice!a@a.tmi.twitch.tv PRIVMSG #mychan :#set !hi hello there\r\n"
         == Wire("alice", "a", "a", '.', '.', '.', "mychan", "#set !hi hello there")
  {
    WireHalves("alice", "a", "a", '.', '.', '.', "mychan", "#set !hi hello there");
    ExampleHead();
    ExampleTail();
    ExampleHalves();
  }

  /** The example line up to the channel, spelled as `Wire` builds it. */
  lemma ExampleHead()
    ensures ":alice!a@a.tmi.twitch.tv PRIVMSG #" == ":" + "alice" + "!" + "a" + "@" + "a" + MarkerText('.', '.', '.')
  {
  }

  /** The example line from the channel on, spelled as `Wire` builds it. */
  lemma ExampleTail()
    ensures "mychan :#set !hi hello there\r\n" == "mychan" + " :" + "#set !hi hello there" + "\r\n"
  {
  }

  /** The example line is its head followed by its tail. */
  lemma ExampleHalves()
    ensures ":alice!a@a.tmi.twitch.tv PRIVMSG #mychan :#set !hi hello there\r\n"
         == ":alice!a@a.tmi.twitch.tv PRIVMSG #" + "mychan :#set !hi hello there\r\n"
  {
  }

  /** The example of a chat command as Twitch relays it. */
  lemma DecodeExample()
    ensures Decode(":alice!a@a.tmi.twitch.tv PRIVMSG #mychan :#set !hi hello there\r\n")
         == ChannelMessage("alice", "mychan", "#set !hi hello there")
  {
    var m := "#set !hi hello there";
    assert !HasSeparator(m) by {
      assert forall k | 0 <= k < |m| :: m[k] != ':';
    }
    assert NoNewline(m) && NoNewline("alice") && NoNewline("a") && NoNewline("mychan");
    assert '!' !in "a" && '@' !in "a" && '#' !in "mychan";
    ExampleIsWire();
    WireDecodes("alice", "a", "a", '.', '.', '.', "mychan", m);
  }

  // ---------------------------------------------------------------------------
  // Encoding and writing
  // ---------------------------------------------------------------------------

  /** `JOIN #<channel>`, the line `join` sends (section 3.2.1 of RFC 2812). */
  function JoinLine(channel: string): string {
    "JOIN #" + channel
  }

  /** `PRIVMSG #<channel> :<message>`, the line behind `SendChannelMessage` (section 3.3.1 of RFC 2812). */
  function PrivmsgLine(channel: string, message: string): string {
    "PRIVMSG #" + channel + " :" + message
  }

  /** `PASS <password>` (section 3.1.1 of RFC 2812). */
  function PassLine(password: string): string {
    "PASS " + password
  }

  /** `NICK <nickname>` (section 3.1.2 of RFC 2812). */
  function NickLine(nickname: string): string {
    "NICK " + nickname
  }

  /**
   How a server reads an outbound line (section 2.3.1 of RFC 2812): the
   command up to the first space, then the parameters; the last parameter
   is introduced by ` :`.
   */
  function CommandWord(line: string): (r: (string, string))
    ensures line == r.0 + (if r.0 == line then "" else " " + r.1)
    ensures ' ' !in r.0
  {
    match Find(line, ' ')
    case None => (line, "")
    case Some(i) =>
      assert line == line[..i] + " " + line[i + 1..];
      (line[..i], line[i + 1..])
  }

  /** The command word ends at the first space. */
  lemma CommandWordAt(line: string, i: nat)
    requires i < |line| && line[i] == ' ' && ' ' !in line[..i]
    ensures CommandWord(line) == (line[..i], line[i + 1..])
  {
    FindAt(line, ' ', i);
  }

  /** `join(channel)` sends a JOIN command whose parameter text is `#channel`. */
  lemma JoinLineReadsBack(channel: string)
    ensures CommandWord(JoinLine(channel)) == ("JOIN", "#" + channel)
  {
    var line := JoinLine(channel);
    assert line == "JOIN " + ("#" + channel);
    ConcatSlices("JOIN ", "#" + channel);
    assert line[..4] == "JOIN";
    CommandWordAt(line, 4);
  }

  /**
   `SendChannelMessage` sends a PRIVMSG command to `#channel` whose trailing
   parameter is the message, whenever the channel name has no space.
   */
  lemma PrivmsgLineReadsBack(channel: string, message: string)
    requires ' ' !in channel
    ensures CommandWord(PrivmsgLine(channel, message)) == ("PRIVMSG", "#" + channel + " :" + message)
    ensures CommandWord(CommandWord(PrivmsgLine(channel, message)).1) == ("#" + channel, ":" + message)
  {
    PrivmsgVerb(channel, message);
    PrivmsgTarget(channel, message);
  }

  /** The command word of a PRIVMSG line. */
  lemma PrivmsgVerb(channel: string, message: string)
    ensures CommandWord(PrivmsgLine(channel, message)) == ("PRIVMSG", "#" + channel + " :" + message)
  {
    var params := "#" + channel + " :" + message;
    assert PrivmsgLine(channel, message) == "PRIVMSG " + params;
    ConcatSlices("PRIVMSG ", params);
    assert (PrivmsgLine(channel, message))[..7] == "PRIVMSG";
    CommandWordAt(PrivmsgLine(channel, message), 7);
  }

  /** The first parameter of a PRIVMSG line is its target. */
  lemma PrivmsgTarget(channel: string, message: string)
    requires ' ' !in channel
    ensures CommandWord("#" + channel + " :" + message) == ("#" + channel, ":" + message)
  {
    var target := "#" + channel;
    var params := target + " :" + message;
    assert params == target + (" " + (":" + message));
    ConcatSlices(target, " " + (":" + message));
    assert ' ' !in target;
    assert params[|target| + 1..] == (" " + (":" + message))[1..];
    CommandWordAt(params, |target|);
  }

  /**
   The relayed form of our own PRIVMSG, as Twitch echoes it with the
   sender's prefix, decodes back to sender, channel and message.
   */
  lemma RelayedPrivmsgDecodes(nick: string, channel: string, message: string)
    requires NoNewline(nick) && '!' !in nick && '@' !in nick
    requires NoNewline(channel) && '#' !in channel
    requires NoNewline(message) && !HasSeparator(message)
    ensures Decode(":" + nick + "!" + nick + "@" + nick + ".tmi.twitch.tv " + PrivmsgLine(channel, message) + "\r\n")
         == ChannelMessage(nick, channel, message)
  {
    var relayed := ":" + nick + "!" + nick + "@" + nick + ".tmi.twitch.tv " + PrivmsgLine(channel, message) + "\r\n";
    assert ".tmi.twitch.tv PRIVMSG #" == MarkerText('.', '.', '.');
    WireHalves(nick, nick, nick, '.', '.', '.', channel, message);
    assert relayed == Wire(nick, nick, nick, '.', '.', '.', channel, message);
    WireDecodes(nick, nick, nick, '.', '.', '.', channel, message);
  }

  /** What the writer's buffered stream has accepted so far. */
  datatype Stream = Stream(written: string)

  /** Which of the three calls of `send_line` fail: the text, the newline, the flush. */
  datatype WriteFaults = WriteFaults(textFails: bool, newlineFails: bool, flushFails: bool)

  /** `send_new_line`: one `\n`, or `WriteFailed` and nothing. */
  function SendNewLine(w: Stream, fails: bool): (r: (Stream, Result<(), IrcError>))
    ensures r.1.Ok? <==> !fails
    ensures r.1.Err? ==> r.1.error == WriteFailed && r.0 == w
    ensures r.1.Ok? ==> r.0.written == w.written + "\n"
  {
    if fails then (w, Err(WriteFailed)) else (Stream(w.written + "\n"), Ok(()))
  }

  /**
   `send_line`: the text, then `send_new_line`, then a flush, stopping at the
   first failure with `WriteFailed`. Lines end with a bare `\n`, not the
   CR-LF of section 2.3 of RFC 2812.
   */
  function SendLine(w: Stream, line: string, f: WriteFaults): (r: (Stream, Result<(), IrcError>))
    ensures r.1.Ok? <==> !f.textFails && !f.newlineFails && !f.flushFails
    ensures r.1.Err? ==> r.1.error == WriteFailed
    ensures f.textFails ==> r.0 == w
    ensures !f.textFails && f.newlineFails ==> r.0.written == w.written + line
    ensures !f.textFails && !f.newlineFails ==> r.0.written == w.written + Frame([line])
  {
    if f.textFails then (w, Err(WriteFailed))
    else
      var (w', nl) := SendNewLine(Stream(w.written + line), f.newlineFails);
      if nl.Err? then (w', nl)
      else if f.flushFails then (w', Err(WriteFailed))
      else (w', Ok(()))
  }

  /** The bytes a sequence of successful `send_line` calls leaves in the stream. */
  function Frame(lines: seq<string>): string {
    if |lines| == 0 then "" else lines[0] + "\n" + Frame(lines[1..])
  }

  /** The complete lines of a stream, as the peer reads them back. */
  function Unframe(s: string): seq<string>
    decreases |s|
  {
    match Find(s, '\n')
    case None => []
    case Some(i) => [s[..i]] + Unframe(s[i + 1..])
  }

  /** Lines without line feeds survive `send_line` framing unchanged. */
  lemma {:induction false} UnframeFrame(lines: seq<string>)
    requires forall i :: 0 <= i < |lines| ==> NoNewline(lines[i])
    ensures Unframe(Frame(lines)) == lines
  {
    if |lines| > 0 {
      var s := Frame(lines);
      var l := lines[0];
      assert s == l + "\n" + Frame(lines[1..]);
      assert s[|l|] == '\n' && s[..|l|] == l;
      assert Find(s, '\n') == Some(|l|);
      assert s[|l| + 1..] == Frame(lines[1..]);
      UnframeFrame(lines[1..]);
    }
  }

  /** `IrcClientBuilder`: the server address and the optional credentials. */
  datatype Builder = Builder(url: string, nickname: Option<string>, password: Option<string>)

  /** `IrcClientBuilder::create`: the address, and no credentials yet. */
  function Create(url: string): (b: Builder)
    ensures b.url == url && b.nickname.None? && b.password.None?
  {
    Builder(url, None, None)
  }

  /** `nick`: sets (or replaces) the nickname and leaves the rest alone. */
  function Nick(b: Builder, nickname: string): (r: Builder)
    ensures r.nickname == Some(nickname)
    ensures r.url == b.url && r.password == b.password
  {
    b.(nickname := Some(nickname))
  }

  /** `pass`: sets (or replaces) the password and leaves the rest alone. */
  function Pass(b: Builder, password: string): (r: Builder)
    ensures r.password == Some(password)
    ensures r.url == b.url && r.nickname == b.nickname
  {
    b.(password := Some(password))
  }

  /**
   `IrcClientBuilder::connect`: fails with `ConnectionFailed` when the TCP
   connection or the stream clone fails; otherwise the lines queued on the
   new writer, PASS before NICK, each only if it was set.
   */
  function Connect(b: Builder, tcpOk: bool, cloneOk: bool): (r: Result<seq<string>, IrcError>)
    ensures r.Err? <==> !tcpOk || !cloneOk
    ensures r.Err? ==> r.error == ConnectionFailed
    ensures r.Ok? ==> |r.value| == (if b.password.Some? then 1 else 0) + (if b.nickname.Some? then 1 else 0)
    ensures r.Ok? && b.password.Some? ==> r.value[0] == PassLine(b.password.value)
    ensures r.Ok? && b.nickname.Some? ==> r.value[|r.value| - 1] == NickLine(b.nickname.value)
  {
    if !tcpOk || !cloneOk then Err(ConnectionFailed)
    else
      var pass := if b.password.Some? then [PassLine(b.password.value)] else [];
      var nick := if b.nickname.Some? then [NickLine(b.nickname.value)] else [];
      Ok(pass + nick)
  }

  /**
   The chain `main` uses sets the nickname before the password, yet the
   connection still queues PASS first, then NICK, and nothing else.
   */
  lemma PasswordFirst(url: string, nickname: string, password: string)
    ensures Connect(Pass(Nick(Create(url), nickname), password), true, true)
         == Ok([PassLine(password), NickLine(nickname)])
  {
    assert [PassLine(password)] + [NickLine(nickname)] == [PassLine(password), NickLine(nickname)];
  }

  /** The messages the `IrcClientWriter` actor handles. */
  datatype WriterMessage =
    | SendLineMsg(line: string)
    | JoinChannel(channel: string)
    | SendChannelMessage(channel: string, message: string)

  /**
   The writer actor's handlers: each message becomes exactly one `send_line`
   call, of the raw line, of `JOIN #channel`, or of `PRIVMSG #channel :message`.
   */
  function HandleWriterMessage(w: Stream, msg: WriterMessage, f: WriteFaults): (r: (Stream, Result<(), IrcError>))
    ensures r.1.Ok? <==> !f.textFails && !f.newlineFails && !f.flushFails
    ensures r.1.Err? ==> r.1.error == WriteFailed
    ensures f.textFails ==> r.0 == w
    ensures !f.textFails && !f.newlineFails && msg.SendLineMsg? ==>
      r.0.written == w.written + msg.line + "\n"
    ensures !f.textFails && !f.newlineFails && msg.JoinChannel? ==>
      r.0.written == w.written + "JOIN #" + msg.channel + "\n"
    ensures !f.textFails && !f.newlineFails && msg.SendChannelMessage? ==>
      r.0.written == w.written + "PRIVMSG #" + msg.channel + " :" + msg.message + "\n"
    ensures !f.textFails && f.newlineFails && msg.SendLineMsg? ==> r.0.written == w.written + msg.line
    ensures !f.textFails && f.newlineFails && msg.JoinChannel? ==> r.0.written == w.written + "JOIN #" + msg.channel
    ensures !f.textFails && f.newlineFails && msg.SendChannelMessage? ==>
      r.0.written == w.written + "PRIVMSG #" + msg.channel + " :" + msg.message
  {
    match msg
    case SendLineMsg(l) => SendLine(w, l, f)
    case JoinChannel(c) => SendLine(w, JoinLine(c), f)
    case SendChannelMessage(c, m) => SendLine(w, PrivmsgLine(c, m), f)
  }
}

=== FILE: models.dfy ===
/**
 The messages of `cold_data/src/models.rs` and the errors its handlers
 return. `RemoveCommand` is used by `cold_data/src/lib.rs` but not declared
 in the models file; it is given here the two fields that handler reads.
 */
module Models {
  import opened Storage

  /** `CreateCommand`: the row to upsert. */
  datatype CreateCommand = CreateCommand(channel: string, matchExpr: string, command: string)

  /** `RemoveCommand`: the key of the rows to delete. */
  datatype RemoveCommand = RemoveCommand(channel: string, matchExpr: string)

  /** The row a `CreateCommand` writes. */
  function RowOf(msg: CreateCommand): Rule {
    Rule(msg.channel, msg.matchExpr, msg.command)
  }

  /**
   The `failure::Error` values the store can return: a pool checkout that
   failed, a statement or query that failed, or a poisoned cache lock
   (`CacheError::WriterError`).
   */
  datatype DbError = PoolError | QueryError | WriterError
}

=== FILE: pipeline.dfy ===
/**
 The path one chat line takes through the bot: decoded by the IRC reader,
 routed by `run_irc`, parsed by the command processor, and stored by the
 database actor, which refreshes the cache the web frontend reads.
 */
module Pipeline {
  import opened Results
  import opened Text
  import opened IrcClient
  import opened Commands
  import opened Models
  import opened Storage
  import opened Routing
  import ColdData
  import CommandCache

  /** A chat text after `#` that has no whitespace at either end reaches the processor unchanged. */
  lemma CommandTextRouted(user: string, channel: string, text: string, debug: DebugFormat)
    requires |text| > 0 && !IsWhitespace(text[0]) && !IsWhitespace(text[|text| - 1])
    ensures Route(ChannelMessage(user, channel, "#" + text), debug)
         == Some(Command(MetaCommand(channel, user, text)))
  {
    var message := "#" + text;
    assert message[1..] == "" + text + "";
    assert AllWhitespace("");
    TrimExact("", text, "");
  }

  /** `#set <match> <text>` is routed to the processor as `set <match> <text>`. */
  lemma SetCommandRouted(user: string, channel: string, matchExpr: string, text: string, debug: DebugFormat)
    requires |text| > 0 && !IsWhitespace(text[|text| - 1])
    ensures Route(ChannelMessage(user, channel, "#" + SetText(matchExpr, text)), debug)
         == Some(Command(MetaCommand(channel, user, SetText(matchExpr, text))))
  {
    var st := SetText(matchExpr, text);
    assert st[0] == 's' && st[|st| - 1] == text[|text| - 1];
    CommandTextRouted(user, channel, st, debug);
  }

  /**
   The worked example: chat text `#set !hi hello there` reaches the processor
   as `set !hi hello there`. The message is a parameter fixed to the literal,
   and the general `CommandTextRouted` does the work.
   */
  lemma RouteExample(m: IrcMessage, debug: DebugFormat)
    requires m == ChannelMessage("alice", "mychan", "#set !hi hello there")
    ensures Route(m, debug) == Some(Command(MetaCommand("mychan", "alice", "set !hi hello there")))
  {
    ExampleSpelling();
    CommandTextRouted("alice", "mychan", "set !hi hello there", debug);
  }

  /** The example chat text is `#` followed by the command text. */
  lemma ExampleSpelling()
    ensures "#set !hi hello there" == "#" + "set !hi hello there"
  {
  }

  /**
   A chat line that does not start with `#`, as the server relays it and
   with parts that leave the pattern no other choice, is passed to the
   update server as the rendering of its user, channel and message.
   */
  lemma ChatLineBroadcast(u: string, a: string, h: string, x: char, y: char, z: char, c: string,
                          m: string, debug: DebugFormat)
    requires NoNewline(u) && NoNewline(a) && NoNewline(h) && NoNewline(c)
    requires x != '\n' && y != '\n' && z != '\n'
    requires '!' !in a && '@' !in h && '#' !in c
    requires NoNewline(m) && !HasSeparator(m) && !StartsWith(m, '#')
    ensures Handler(debug)(Wire(u, a, h, x, y, z, c, m)) == [Update(debug(u, c, m))]
  {
    WireDecodes(u, a, h, x, y, z, c, m);
  }

  /**
   A chat line `#set <match> <text>` as the server relays it, whose
   uncaptured parts leave the pattern no other choice, is turned into
   exactly one command for the processor.
   */
  lemma SetLineHandled(u: string, a: string, h: string, x: char, y: char, z: char, c: string,
                       matchExpr: string, text: string, debug: DebugFormat)
    requires NoNewline(u) && NoNewline(a) && NoNewline(h) && NoNewline(c)
    requires x != '\n' && y != '\n' && z != '\n'
    requires '!' !in a && '@' !in h && '#' !in c
    requires NoNewline("#" + SetText(matchExpr, text)) && !HasSeparator("#" + SetText(matchExpr, text))
    requires |text| > 0 && !IsWhitespace(text[|text| - 1])
    ensures Handler(debug)(Wire(u, a, h, x, y, z, c, "#" + SetText(matchExpr, text)))
         == [Command(MetaCommand(c, u, SetText(matchExpr, text)))]
  {
    var m := "#" + SetText(matchExpr, text);
    WireDecodes(u, a, h, x, y, z, c, m);
    SetCommandRouted(u, c, matchExpr, text, debug);
  }

  /**
   The rule a `set` command asks for is what the store then holds: after
   a write that reports changed rows and a refresh that succeeds, the
   table maps the key to the command text (with its leading space) and the
   cache agrees with the table.
   */
  lemma SetCommandStored(db: ColdData.Db, channel: string, user: string, matchExpr: string, text: string,
                         rows: nat, store: StoreReply)
    requires |matchExpr| > 0 && ' ' !in matchExpr && !IsWhitespace(matchExpr[0])
    requires |text| > 0 && !IsWhitespace(text[|text| - 1])
    requires rows > 0
    ensures Handle(MetaCommand(channel, user, SetText(matchExpr, text)), store).request
         == Some(CreateCommand(channel, matchExpr, " " + text))
    ensures var r := ColdData.HandleCreate(db, CreateCommand(channel, matchExpr, " " + text), true,
                                           ColdData.Executed(rows), CommandCache.NoFault);
      && r.1 == Ok(rows)
      && View(r.0.table)[Key(channel, matchExpr)] == " " + text
      && ColdData.Coherent(r.0)
  {
    SetTextHandled(channel, user, matchExpr, text, store);
    CreateStored(db, CreateCommand(channel, matchExpr, " " + text), rows);
  }

  /** A write that changes rows, followed by a refresh that works, leaves table and cache agreeing on the new rule. */
  lemma CreateStored(db: ColdData.Db, request: CreateCommand, rows: nat)
    requires rows > 0
    ensures var r := ColdData.HandleCreate(db, request, true, ColdData.Executed(rows), CommandCache.NoFault);
      && r.1 == Ok(rows)
      && View(r.0.table)[Key(request.channel, request.matchExpr)] == request.command
      && ColdData.Coherent(r.0)
  {
    var r := ColdData.HandleCreate(db, request, true, ColdData.Executed(rows), CommandCache.NoFault);
    assert r.1.Ok?;
  }
}

=== FILE: results.dfy ===
/** Failure-carrying datatypes shared by every module: Rust's `Option` and `Result`. */
module Results {

  /** Rust's `Option<T>`. */
  datatype Option<+T> = None | Some(value: T)

  /** Rust's `Result<T, E>`. */
  datatype Result<+T, +E> = Ok(value: T) | Err(error: E)
}

=== FILE: routing.dfy ===
/**
 The reading thread of `run_irc` in `src/main.rs`: it joins every
 configured channel, then turns each line the server sends into at most one
 request, either a `MetaCommand` for the command processor or a `MassSend`
 for the update server, until a read fails.
 */
module Routing {
  import opened Results
  import opened Text
  import opened IrcClient
  import opened Commands
  import opened Models
  import opened Storage
  import ColdData
  import CommandCache

  /** A request the thread sends to one of the actors. */
  datatype Effect =
    | Join(channel: string)
    | Command(cmd: MetaCommand)
    | Update(text: string)

  /**
   The `{:?}` rendering of a `ChannelMessage` that becomes the `MassSend`
   text; its exact escaping belongs to the standard library, so it is a
   parameter of the model.
   */
  type DebugFormat = (string, string, string) -> string

  /**
   The body of the read loop for one decoded message: a chat line that
   starts with `#` goes to the command processor without the `#` and
   trimmed, any other chat line goes to the update server, and lines the
   pattern did not match are dropped.
   */
  function Route(m: IrcMessage, debug: DebugFormat): (e: Option<Effect>)
    ensures m.Unknown? ==> e.None?
    ensures e.Some? && e.value.Command? ==>
      && m.ChannelMessage? && StartsWith(m.message, '#')
      && e.value.cmd.channel == m.channel && e.value.cmd.user == m.user
      && m.message == "#" + m.message[1..]
      && (exists p, q :: m.message[1..] == p + e.value.cmd.message + q && AllWhitespace(p) && AllWhitespace(q))
    ensures e.Some? && e.value.Command? && |e.value.cmd.message| > 0 ==>
      !IsWhitespace(e.value.cmd.message[0]) && !IsWhitespace(e.value.cmd.message[|e.value.cmd.message| - 1])
    ensures e.Some? && e.value.Update? ==> m.ChannelMessage? && !StartsWith(m.message, '#')
    ensures e.Some? && e.value.Update? ==> e.value.text == debug(m.user, m.channel, m.message)
    ensures m.ChannelMessage? ==> e.Some? && !e.value.Join?
  {
    match m
    case Unknown(_) => None
    case ChannelMessage(user, channel, message) =>
      if StartsWith(message, '#') then
        Some(Command(MetaCommand(channel, user, Trim(message[1..]))))
      else
        Some(Update(debug(user, channel, message)))
  }

  /**
   The effects of one read: nothing for an unmatched line, one command for
   a chat text starting with `#`, and otherwise one update carrying the
   rendered message.
   */
  function LineEffects(line: string, debug: DebugFormat): (es: seq<Effect>)
    ensures es == [] <==> Decode(line).Unknown?
    ensures |es| <= 1
    ensures var m := Decode(line);
      m.ChannelMessage? && StartsWith(m.message, '#') ==>
        && es[0].Command?
        && es[0].cmd.channel == m.channel && es[0].cmd.user == m.user
    ensures var m := Decode(line);
      m.ChannelMessage? && !StartsWith(m.message, '#') ==> es == [Update(debug(m.user, m.channel, m.message))]
  {
    match Route(Decode(line), debug)
    case None => []
    case Some(e) => [e]
  }

  /** The joins sent before the first read, one per channel in configuration order. */
  function Joins(channels: seq<string>): (js: seq<Effect>)
    ensures |js| == |channels|
    ensures forall i :: 0 <= i < |js| ==> js[i] == Join(channels[i])
  {
    if |channels| == 0 then []
    else Joins(channels[..|channels| - 1]) + [Join(channels[|channels| - 1])]
  }

  /** What the loop body does with one line that was read. */
  type LineHandler = string -> seq<Effect>

  /** The loop body of `run_irc`: decode, then route. */
  function Handler(debug: DebugFormat): LineHandler {
    line => LineEffects(line, debug)
  }

  /**
   The reference behaviour of the read loop over what the socket delivers:
   the effects of each line in order, and nothing from the first failed
   read on, since `expect` ends the thread there.
   */
  function Dispatch(lines: seq<ReadResult>, handle: LineHandler): seq<Effect>
    decreases |lines|
  {
    if |lines| == 0 then []
    else
      match lines[0]
      case ReadFails => []
      case LineRead(line) => handle(line) + Dispatch(lines[1..], handle)
  }

  /** Reads that all succeed. */
  predicate AllRead(lines: seq<ReadResult>) {
    forall i :: 0 <= i < |lines| ==> lines[i].LineRead?
  }

  /** Nothing read after a failed read has any effect. */
  lemma {:induction false} DispatchStopsAtFailure(lines: seq<ReadResult>, i: nat, handle: LineHandler)
    requires i < |lines| && lines[i].ReadFails?
    ensures Dispatch(lines, handle) == Dispatch(lines[..i], handle)
    decreases i
  {
    if i > 0 {
      assert lines[1..][i - 1] == lines[i];
      DispatchStopsAtFailure(lines[1..], i - 1, handle);
      assert lines[..i][1..] == lines[1..][..i - 1];
    }
  }

  /** Successful reads compose: the effects of two runs of lines are those of each run, in order. */
  lemma {:induction false} DispatchAppend(a: seq<ReadResult>, b: seq<ReadResult>, handle: LineHandler)
    requires AllRead(a)
    ensures Dispatch(a + b, handle) == Dispatch(a, handle) + Dispatch(b, handle)
    decreases |a|
  {
    if |a| > 0 {
      assert (a + b)[0] == a[0] && a[0].LineRead?;
      assert (a + b)[1..] == a[1..] + b;
      assert AllRead(a[1..]) by {
        forall i | 0 <= i < |a[1..]| ensures a[1..][i].LineRead? {
          assert a[1..][i] == a[i + 1];
        }
      }
      DispatchAppend(a[1..], b, handle);
    } else {
      assert a + b == b;
    }
  }

  /** No effect in `es` is a join. */
  predicate NoJoin(es: seq<Effect>) {
    forall i :: 0 <= i < |es| ==> !es[i].Join?
  }

  /** No line is ever routed to a join. */
  lemma LineJoinsNothing(debug: DebugFormat)
    ensures forall line :: NoJoin(Handler(debug)(line))
  {
    forall line ensures NoJoin(Handler(debug)(line)) {
      var m := Decode(line);
      assert m.ChannelMessage? ==> !Route(m, debug).value.Join?;
    }
  }

  /** A loop body that never joins makes a loop that never joins. */
  lemma {:induction false} DispatchJoinsNothing(lines: seq<ReadResult>, handle: LineHandler)
    requires forall line :: NoJoin(handle(line))
    ensures NoJoin(Dispatch(lines, handle))
    decreases |lines|
  {
    if |lines| > 0 && lines[0].LineRead? {
      DispatchJoinsNothing(lines[1..], handle);
      var head := handle(lines[0].line);
      var d := Dispatch(lines, handle);
      assert d == head + Dispatch(lines[1..], handle);
      forall i | 0 <= i < |d| ensures !d[i].Join? {
        if i < |head| {
          assert d[i] == head[i];
        } else {
          assert d[i] == Dispatch(lines[1..], handle)[i - |head|];
        }
      }
    }
  }

  /** The `for` loop over the configured channels. */
  method JoinAll(channels: seq<string>) returns (effects: seq<Effect>)
    ensures effects == Joins(channels)
  {
    effects := [];
    var j := 0;
    while j < |channels|
      invariant 0 <= j <= |channels|
      invariant effects == Joins(channels[..j])
    {
      assert channels[..j + 1][..j] == channels[..j];
      effects := effects + [Join(channels[j])];
      j := j + 1;
    }
    assert channels[..j] == channels;
  }

  /**
   The `loop` over `next_message`: handle each line until a read fails.
   `failed` tells whether it ended that way; when every read succeeded the
   real thread would go on waiting for the next line.
   */
  method ReadLoop(lines: seq<ReadResult>, handle: LineHandler) returns (effects: seq<Effect>, failed: bool)
    ensures failed <==> exists i :: 0 <= i < |lines| && lines[i].ReadFails?
    ensures effects == Dispatch(lines, handle)
  {
    effects := [];
    failed := false;
    var k := 0;
    while k < |lines| && !failed
      invariant 0 <= k <= |lines|
      invariant failed ==> 0 < k && lines[k - 1].ReadFails?
      invariant !failed ==> effects == Dispatch(lines[..k], handle) && AllRead(lines[..k])
      invariant failed ==> effects == Dispatch(lines[..k - 1], handle)
      decreases |lines| - k
    {
      match lines[k]
      case ReadFails =>
        failed := true;
        k := k + 1;
      case LineRead(line) =>
        ReadOne(lines[..k], lines[k], handle);
        assert lines[..k + 1] == lines[..k] + [lines[k]];
        effects := effects + handle(line);
        k := k + 1;
    }
    if failed {
      DispatchStopsAtFailure(lines, k - 1, handle);
    } else {
      assert lines[..k] == lines;
    }
  }

  /** Extending a run of successful reads by one more line. */
  lemma ReadOne(done: seq<ReadResult>, next: ReadResult, handle: LineHandler)
    requires AllRead(done) && next.LineRead?
    ensures Dispatch(done + [next], handle) == Dispatch(done, handle) + handle(next.line)
    ensures AllRead(done + [next])
  {
    DispatchAppend(done, [next], handle);
    assert [next][1..] == [];
  }

  /** `run_irc`'s thread: the joins, then the read loop. */
  method RunIrc(channels: seq<string>, lines: seq<ReadResult>, debug: DebugFormat)
    returns (effects: seq<Effect>, failed: bool)
    ensures |effects| >= |channels|
    ensures forall i :: 0 <= i < |channels| ==> effects[i] == Join(channels[i])
    ensures forall i :: |channels| <= i < |effects| ==> !effects[i].Join?
    ensures failed <==> exists i :: 0 <= i < |lines| && lines[i].ReadFails?
    ensures effects == Joins(channels) + Dispatch(lines, Handler(debug))
  {
    var joins := JoinAll(channels);
    var rest;
    rest, failed := ReadLoop(lines, Handler(debug));
    LineJoinsNothing(debug);
    DispatchJoinsNothing(lines, Handler(debug));
    effects := joins + rest;
  }
}

=== FILE: storage.dfy ===
/**
 The `commands` table as the store handlers of `cold_data/src/lib.rs` use it.
 The schema file is not part of this model: the table is taken to be keyed
 by `(channel, match_expr)`, which is what makes `REPLACE INTO` an upsert.
 Rows are kept in storage order; `REPLACE INTO` drops the row holding the key
 and appends the new one, `DELETE ... WHERE` drops the matching rows, and
 `SELECT *` lists the rows in order.
 */
module Storage {

  /** A row of `commands`: `models::Command` / `models::CreateCommand`. */
  datatype Rule = Rule(channel: string, matchExpr: string, command: string)

  /** The assumed primary key of `commands`. */
  datatype Key = Key(channel: string, matchExpr: string)

  /** The key a row is stored under. */
  function KeyOf(r: Rule): Key {
    Key(r.channel, r.matchExpr)
  }

  /** The rows of the table, in storage order. */
  type Table = seq<Rule>

  /** The key constraint: no two rows share a key. */
  predicate KeysUnique(t: Table) {
    forall i, j :: 0 <= i < j < |t| ==> KeyOf(t[i]) != KeyOf(t[j])
  }

  /** The table as a lookup from key to command text. */
  function View(t: Table): map<Key, string>
  {
    if |t| == 0 then map[]
    else View(t[..|t| - 1])[KeyOf(t[|t| - 1]) := t[|t| - 1].command]
  }

  /** The rows whose key is not `k`, in order. */
  function Without(t: Table, k: Key): (r: Table)
    ensures |r| <= |t|
    ensures forall row :: row in r <==> row in t && KeyOf(row) != k
  {
    if |t| == 0 then []
    else
      var front := Without(t[..|t| - 1], k);
      assert forall row :: row in t <==> row in t[..|t| - 1] || row == t[|t| - 1];
      if KeyOf(t[|t| - 1]) == k then front else front + [t[|t| - 1]]
  }

  /** Each key of the view is the key of some row, and each row's key is in the view. */
  lemma {:induction false} ViewKeys(t: Table)
    ensures forall k :: k in View(t) <==> exists row :: row in t && KeyOf(row) == k
  {
    if |t| > 0 {
      ViewKeys(t[..|t| - 1]);
      assert forall row :: row in t <==> row in t[..|t| - 1] || row == t[|t| - 1];
    }
  }

  /** Dropping a key drops exactly that key from the view. */
  lemma {:induction false} ViewWithout(t: Table, k: Key)
    ensures View(Without(t, k)) == View(t) - {k}
  {
    if |t| > 0 {
      var front := t[..|t| - 1];
      ViewWithout(front, k);
      ViewWithoutStep(t, k);
    }
  }

  /** One step of `ViewWithout`: the last row either carries `k` or survives. */
  lemma ViewWithoutStep(t: Table, k: Key)
    requires |t| > 0
    requires View(Without(t[..|t| - 1], k)) == View(t[..|t| - 1]) - {k}
    ensures View(Without(t, k)) == View(t) - {k}
  {
    var front := t[..|t| - 1];
    var last := t[|t| - 1];
    var vf := View(front);
    if KeyOf(last) != k {
      var r := Without(front, k) + [last];
      assert r[..|r| - 1] == Without(front, k);
      MapUpdateRemove(vf, k, KeyOf(last), last.command);
    } else {
      MapUpdateRemoveSame(vf, k, last.command);
    }
  }

  /** Removing one key and setting another commute. */
  lemma MapUpdateRemove(m: map<Key, string>, k: Key, k': Key, v: string)
    requires k != k'
    ensures (m - {k})[k' := v] == m[k' := v] - {k}
  {
  }

  /** Setting a key that is then removed leaves no trace. */
  lemma MapUpdateRemoveSame(m: map<Key, string>, k: Key, v: string)
    ensures m - {k} == m[k := v] - {k}
  {
  }

  /** Removing rows keeps the key constraint. */
  lemma {:induction false} WithoutKeepsUnique(t: Table, k: Key)
    requires KeysUnique(t)
    ensures KeysUnique(Without(t, k))
  {
    if |t| > 0 {
      var front := t[..|t| - 1];
      WithoutKeepsUnique(front, k);
      var last := t[|t| - 1];
      if KeyOf(last) != k {
        var w := Without(front, k);
        forall row | row in w ensures KeyOf(row) != KeyOf(last) {
          var i :| 0 <= i < |front| && front[i] == row;
        }
        var r := w + [last];
        forall i, j | 0 <= i < j < |r| ensures KeyOf(r[i]) != KeyOf(r[j]) {
          if j == |r| - 1 {
            assert r[i] in w;
          } else {
            assert r[i] == w[i] && r[j] == w[j];
          }
        }
      }
    }
  }

  /** Appending a row whose key no remaining row carries keeps the key constraint. */
  lemma AppendKeepsUnique(t: Table, row: Rule)
    requires KeysUnique(t)
    ensures KeysUnique(Without(t, KeyOf(row)) + [row])
  {
    var w := Without(t, KeyOf(row));
    WithoutKeepsUnique(t, KeyOf(row));
    var r := w + [row];
    forall i, j | 0 <= i < j < |r| ensures KeyOf(r[i]) != KeyOf(r[j]) {
      if j == |r| - 1 {
        assert r[i] in w;
      } else {
        assert r[i] == w[i] && r[j] == w[j];
      }
    }
  }

  /** `REPLACE INTO commands VALUES (row)`. */
  function ReplaceInto(t: Table, row: Rule): (r: Table)
    ensures KeysUnique(t) ==> KeysUnique(r)
    ensures View(r) == View(t)[KeyOf(row) := row.command]
    ensures row in r
  {
    var w := Without(t, KeyOf(row));
    ViewWithout(t, KeyOf(row));
    var r := w + [row];
    assert r[..|r| - 1] == w;
    if KeysUnique(t) then AppendKeepsUnique(t, row); r else r
  }

  /**
   `DELETE FROM commands WHERE channel = .. AND match_expr = ..`: the rows
   left and the number of rows deleted.
   */
  function DeleteWhere(t: Table, k: Key): (r: (Table, nat))
    ensures KeysUnique(t) ==> KeysUnique(r.0)
    ensures View(r.0) == View(t) - {k}
    ensures r.1 == |t| - |r.0|
    ensures r.1 > 0 <==> k in View(t)
    ensures forall row :: row in r.0 <==> row in t && KeyOf(row) != k
  {
    var w := Without(t, k);
    ViewWithout(t, k);
    ViewKeys(t);
    DeletedCount(t, k);
    if KeysUnique(t) then WithoutKeepsUnique(t, k); (w, |t| - |w|) else (w, |t| - |w|)
  }

  /** Rows are deleted exactly when some row carries the key. */
  lemma {:induction false} DeletedCount(t: Table, k: Key)
    ensures |Without(t, k)| < |t| <==> exists row :: row in t && KeyOf(row) == k
  {
    if |t| > 0 {
      var front, last := t[..|t| - 1], t[|t| - 1];
      DeletedCount(front, k);
      assert t == front + [last];
      if KeyOf(last) == k {
        assert |Without(t, k)| == |Without(front, k)| < |t|;
      } else {
        assert Without(t, k) == Without(front, k) + [last];
        assert (exists row :: row in t && KeyOf(row) == k) <==> (exists row :: row in front && KeyOf(row) == k);
      }
    }
  }

  /** The rows of `t` that carry key `k`. */
  function RowsWithKey(t: Table, k: Key): (r: seq<Rule>)
    ensures forall row :: row in r <==> row in t && KeyOf(row) == k
  {
    if |t| == 0 then []
    else
      var front := RowsWithKey(t[..|t| - 1], k);
      assert forall row :: row in t <==> row in t[..|t| - 1] || row == t[|t| - 1];
      if KeyOf(t[|t| - 1]) == k then front + [t[|t| - 1]] else front
  }

  /** After `REPLACE INTO`, exactly one row carries the key: the new one. */
  lemma ReplaceIntoSingleRow(t: Table, row: Rule)
    requires KeysUnique(t)
    ensures RowsWithKey(ReplaceInto(t, row), KeyOf(row)) == [row]
  {
    var r := ReplaceInto(t, row);
    var w := Without(t, KeyOf(row));
    assert r == w + [row];
    assert r[..|r| - 1] == w;
    NoRowsWithKey(w, KeyOf(row));
  }

  /** A table in which no row carries the key has no rows with it. */
  lemma {:induction false} NoRowsWithKey(t: Table, k: Key)
    requires forall row :: row in t ==> KeyOf(row) != k
    ensures RowsWithKey(t, k) == []
  {
    if |t| > 0 {
      assert t[|t| - 1] in t;
      assert forall row :: row in t[..|t| - 1] ==> row in t;
      NoRowsWithKey(t[..|t| - 1], k);
    }
  }

  /**
   Upsert, not append: after two `REPLACE INTO` with the same key the table
   holds one row for that key, carrying the later command.
   */
  lemma SecondReplaceReplaces(t: Table, first: Rule, second: Rule)
    requires KeysUnique(t) && KeyOf(first) == KeyOf(second)
    ensures RowsWithKey(ReplaceInto(ReplaceInto(t, first), second), KeyOf(second)) == [second]
    ensures View(ReplaceInto(ReplaceInto(t, first), second))[KeyOf(second)] == second.command
  {
    ReplaceIntoSingleRow(ReplaceInto(t, first), second);
  }
}

=== FILE: text.dfy ===
/**
 The parts of Rust's `str` API that the bot relies on: `char::is_whitespace`,
 `trim`, `find` of a single character and `split_at`, over `string` as a
 sequence of characters. Rust indexes strings by byte, but the bot only
 splits at an ASCII character it has just found (a space) or after the one
 ASCII `#` it checked, so splitting the characters at the found character
 yields the same two substrings as splitting the bytes there.
 */
module Text {
  import opened Results

  /** Rust's `char::is_whitespace`: the Unicode White_Space property. */
  predicate IsWhitespace(c: char) {
    || c == ' '
    || ('\t' <= c <= '\r')
    || c == '\U{0085}' || c == '\U{00A0}' || c == '\U{1680}'
    || ('\U{2000}' <= c <= '\U{200A}')
    || c == '\U{2028}' || c == '\U{2029}' || c == '\U{202F}' || c == '\U{205F}' || c == '\U{3000}'
  }

  /** Every character of `s` is whitespace. */
  predicate AllWhitespace(s: string) {
    forall k :: 0 <= k < |s| ==> IsWhitespace(s[k])
  }

  /**
   `str::trim`: `s` without its leading and trailing whitespace, removed one
   character at a time from either end.
   */
  function Trim(s: string): (t: string)
    ensures exists p, q :: s == p + t + q && AllWhitespace(p) && AllWhitespace(q)
    ensures |t| > 0 ==> !IsWhitespace(t[0]) && !IsWhitespace(t[|t| - 1])
    decreases |s|
  {
    if |s| > 0 && IsWhitespace(s[0]) then
      var t := Trim(s[1..]);
      WhitespaceBefore(s, t);
      t
    else if |s| > 0 && IsWhitespace(s[|s| - 1]) then
      var t := Trim(s[..|s| - 1]);
      WhitespaceAfter(s, t);
      t
    else
      assert s == "" + s + "" && AllWhitespace("");
      s
  }

  /** Whitespace around `t` inside `s[1..]` stays whitespace around it in `s` when `s[0]` is whitespace. */
  lemma WhitespaceBefore(s: string, t: string)
    requires |s| > 0 && IsWhitespace(s[0])
    requires exists p, q :: s[1..] == p + t + q && AllWhitespace(p) && AllWhitespace(q)
    ensures exists p, q :: s == p + t + q && AllWhitespace(p) && AllWhitespace(q)
  {
    var p, q :| s[1..] == p + t + q && AllWhitespace(p) && AllWhitespace(q);
    assert s == [s[0]] + s[1..];
    assert s == ([s[0]] + p) + t + q;
    assert AllWhitespace([s[0]] + p);
  }

  /** Whitespace around `t` inside `s` without its last character stays whitespace around it in `s`. */
  lemma WhitespaceAfter(s: string, t: string)
    requires |s| > 0 && IsWhitespace(s[|s| - 1])
    requires exists p, q :: s[..|s| - 1] == p + t + q && AllWhitespace(p) && AllWhitespace(q)
    ensures exists p, q :: s == p + t + q && AllWhitespace(p) && AllWhitespace(q)
  {
    var p, q :| s[..|s| - 1] == p + t + q && AllWhitespace(p) && AllWhitespace(q);
    assert s == s[..|s| - 1] + [s[|s| - 1]];
    assert s == p + t + (q + [s[|s| - 1]]);
    assert AllWhitespace(q + [s[|s| - 1]]);
  }

  /** `str::find` for a single character: the first index holding `c`. */
  function Find(s: string, c: char): (r: Option<nat>)
    ensures r.None? <==> c !in s
    ensures r.Some? ==> r.value < |s| && s[r.value] == c && c !in s[..r.value]
  {
    if |s| == 0 then None
    else if s[0] == c then Some(0)
    else
      match Find(s[1..], c)
      case None => None
      case Some(i) =>
        assert s[..i + 1] == [s[0]] + s[1..][..i];
        Some(i + 1)
  }

  /** The two halves of a concatenation are its slices at the seam. */
  lemma ConcatSlices(a: string, b: string)
    ensures (a + b)[..|a|] == a && (a + b)[|a|..] == b
  {
  }

  /** `Find` answers the position of the first occurrence. */
  lemma FindAt(s: string, c: char, i: nat)
    requires i < |s| && s[i] == c && c !in s[..i]
    ensures Find(s, c) == Some(i)
  {
    assert s[..i + 1][i] == c;
    var j := Find(s, c).value;
    forall k | 0 <= k < i ensures s[k] != c {
      assert s[k] == s[..i][k];
    }
    forall k | 0 <= k < j ensures s[k] != c {
      assert s[k] == s[..j][k];
    }
  }

  /** `str::starts_with` for a single character. */
  predicate StartsWith(s: string, c: char) {
    |s| > 0 && s[0] == c
  }

  /**
   The largest `k` with `lo <= k < hi` that satisfies `p`, if any; the
   search behind a greedy `.*` that must be followed by some pattern.
   */
  function LastWhere(p: nat -> bool, lo: nat, hi: nat): (r: Option<nat>)
    decreases hi
    ensures r.Some? ==> lo <= r.value < hi && p(r.value)
    ensures r.Some? ==> forall k :: r.value < k < hi ==> !p(k)
    ensures r.None? ==> forall k :: lo <= k < hi ==> !p(k)
  {
    if hi <= lo then None
    else if p(hi - 1) then Some(hi - 1)
    else LastWhere(p, lo, hi - 1)
  }

  /**
   Trimming removes exactly the whitespace around a text that neither
   starts nor ends with whitespace.
   */
  lemma {:induction false} TrimExact(p: string, t: string, q: string)
    requires AllWhitespace(p) && AllWhitespace(q)
    requires |t| > 0 && !IsWhitespace(t[0]) && !IsWhitespace(t[|t| - 1])
    ensures Trim(p + t + q) == t
    decreases |p| + |q|
  {
    if |p| > 0 {
      WhitespaceTail(p);
      TailOfConcat(p, t, q);
      TrimFirst(p + t + q);
      TrimExact(p[1..], t, q);
    } else if |q| > 0 {
      WhitespaceInit(q);
      InitOfConcat(p, t, q);
      TrimLast(p + t + q);
      TrimExact(p, t, q[..|q| - 1]);
    } else {
      InitOfConcat(p, t, q);
      TrimSolid(p + t + q);
    }
  }

  /** One step of `Trim` at the front. */
  lemma TrimFirst(s: string)
    requires |s| > 0 && IsWhitespace(s[0])
    ensures Trim(s) == Trim(s[1..])
  {
  }

  /** One step of `Trim` at the back. */
  lemma TrimLast(s: string)
    requires |s| > 0 && !IsWhitespace(s[0]) && IsWhitespace(s[|s| - 1])
    ensures Trim(s) == Trim(s[..|s| - 1])
  {
  }

  /** `Trim` leaves a text with solid ends alone. */
  lemma TrimSolid(s: string)
    requires |s| > 0 && !IsWhitespace(s[0]) && !IsWhitespace(s[|s| - 1])
    ensures Trim(s) == s
  {
  }

  /** A whitespace text without its first character is whitespace. */
  lemma WhitespaceTail(p: string)
    requires |p| > 0 && AllWhitespace(p)
    ensures AllWhitespace(p[1..])
  {
    var rest := p[1..];
    forall k | 0 <= k < |rest| ensures IsWhitespace(rest[k]) {
      assert rest[k] == p[k + 1];
    }
  }

  /** A whitespace text without its last character is whitespace. */
  lemma WhitespaceInit(q: string)
    requires |q| > 0 && AllWhitespace(q)
    ensures AllWhitespace(q[..|q| - 1])
  {
    var front := q[..|q| - 1];
    forall k | 0 <= k < |front| ensures IsWhitespace(front[k]) {
      assert front[k] == q[k];
    }
  }

  /** The ends of `p + t + q` and what is left without its first character. */
  lemma TailOfConcat(p: string, t: string, q: string)
    requires |p| > 0
    ensures (p + t + q)[0] == p[0] && (p + t + q)[1..] == p[1..] + t + q
  {
  }

  /** The ends of `p + t + q` for an empty `p`, and what is left without its last character. */
  lemma InitOfConcat(p: string, t: string, q: string)
    requires |p| == 0 && |t| > 0
    ensures p + t + q == t + q
    ensures (p + t + q)[0] == t[0]
    ensures |q| > 0 ==> (p + t + q)[|p + t + q| - 1] == q[|q| - 1]
    ensures |q| > 0 ==> (p + t + q)[..|p + t + q| - 1] == p + t + q[..|q| - 1]
    ensures |q| == 0 ==> p + t + q == t
  {
  }

  /** A single leading space is all that trimming removes from a text with solid ends. */
  lemma TrimAfterSpace(s: string, t: string)
    requires s == " " + t
    requires |t| > 0 && !IsWhitespace(t[0]) && !IsWhitespace(t[|t| - 1])
    ensures Trim(s) == t
  {
    assert AllWhitespace(" ") && AllWhitespace("");
    assert s == " " + t + "";
    TrimExact(" ", t, "");
  }
}

=== FILE: ws_update.dfy ===
/**
 The live-update hub of `web_frontend/src/ws_update.rs`: the `UpdateServer`
 registry of websocket subscribers keyed by a random `usize` id, its
 best-effort fan-out, and the lifecycle of one `WsUpdateSession`.
 */
module WsUpdate {
  import opened Results

  /** One past the largest `usize` on a 64-bit target. */
  const UsizeLimit: int := 0x1_0000_0000_0000_0000

  /** A subscriber id: a value of Rust's `usize`. */
  type Id = k: int | 0 <= k < UsizeLimit

  /** The address of a session's mailbox (`Recipient<Message>`). */
  datatype Recipient = Recipient(session: nat)

  /** The registry: each id maps to the mailbox it was registered with. */
  datatype UpdateServer = UpdateServer(clients: map<Id, Recipient>)

  /** `UpdateServer::default`: nobody is registered yet. */
  function Default(): (s: UpdateServer)
    ensures forall k: Id :: k !in s.clients
  {
    UpdateServer(map[])
  }

  /**
   `Handler<Connect>`: `rolled` is the id the random generator produced.
   The new mailbox is stored under it, replacing whoever held it before,
   and the id is answered.
   */
  function Connect(s: UpdateServer, addr: Recipient, rolled: Id): (r: (UpdateServer, Id))
    ensures r.1 == rolled
    ensures r.0.clients.Keys == s.clients.Keys + {rolled}
    ensures r.0.clients[rolled] == addr
    ensures forall k :: k in s.clients && k != rolled ==> r.0.clients[k] == s.clients[k]
  {
    (UpdateServer(s.clients[rolled := addr]), rolled)
  }

  /**
   `Handler<Disconnect>`: the id is removed, everyone else stays, and the id
   is answered; removing an id nobody holds changes nothing.
   */
  function Disconnect(s: UpdateServer, id: Id): (r: (UpdateServer, Id))
    ensures r.1 == id
    ensures r.0.clients.Keys == s.clients.Keys - {id}
    ensures forall k :: k in r.0.clients ==> r.0.clients[k] == s.clients[k]
    ensures id !in s.clients ==> r.0 == s
  {
    (UpdateServer(s.clients - {id}), id)
  }

  /** A `Message` put into a subscriber's mailbox. */
  datatype Delivery = Delivery(to: Recipient, text: string)

  /**
   `send_update` and `Handler<MassSend>` as a reference: every registered id
   is offered the same text once; `failing` holds the ids whose mailbox
   refuses it, which are skipped without affecting the others.
   */
  function Fanout(s: UpdateServer, text: string, failing: set<Id>): (d: map<Id, Delivery>)
    ensures d.Keys == s.clients.Keys - failing
    ensures forall k :: k in d ==> d[k] == Delivery(s.clients[k], text)
  {
    map k | k in s.clients && k !in failing :: Delivery(s.clients[k], text)
  }

  /**
   The loop of `Handler<MassSend>`: visits the registered ids one by one,
   ignoring every delivery that fails. The registry itself is not touched,
   which is why the handler returns only what was delivered.
   */
  method MassSend(s: UpdateServer, text: string, failing: set<Id>) returns (delivered: map<Id, Delivery>)
    ensures delivered.Keys == s.clients.Keys - failing
    ensures forall k :: k in delivered ==> delivered[k].to == s.clients[k] && delivered[k].text == text
    ensures delivered == Fanout(s, text, failing)
  {
    delivered := map[];
    var left := s.clients.Keys;
    while left != {}
      invariant left <= s.clients.Keys
      invariant delivered.Keys == (s.clients.Keys - left) - failing
      invariant forall k :: k in delivered ==> delivered[k] == Delivery(s.clients[k], text)
      decreases left
    {
      var k :| k in left;
      if k !in failing {
        delivered := delivered[k := Delivery(s.clients[k], text)];
      }
      left := left - {k};
    }
  }

  /** One request reaching the server, in mailbox order. */
  datatype Event =
    | ConnectEvent(addr: Recipient, rolled: Id)
    | DisconnectEvent(id: Id)
    | BroadcastEvent(text: string, failing: set<Id>)

  /** What the server answers to one event. */
  datatype Answer = Registered(id: Id) | Removed(id: Id) | Broadcast(delivered: map<Id, Delivery>)

  /** The server handling one event. */
  function Step(s: UpdateServer, e: Event): (r: (UpdateServer, Answer))
    ensures e.BroadcastEvent? ==> r.0 == s
    ensures e.BroadcastEvent? ==> r.1 == Broadcast(Fanout(s, e.text, e.failing))
    ensures e.ConnectEvent? ==> r.1 == Registered(e.rolled)
    ensures e.ConnectEvent? ==> e.rolled in r.0.clients && r.0.clients[e.rolled] == e.addr
    ensures e.ConnectEvent? ==> r.0.clients.Keys == s.clients.Keys + {e.rolled}
    ensures e.ConnectEvent? ==> forall k :: k in s.clients && k != e.rolled ==> r.0.clients[k] == s.clients[k]
    ensures e.DisconnectEvent? ==> r.1 == Removed(e.id)
    ensures e.DisconnectEvent? ==> r.0.clients.Keys == s.clients.Keys - {e.id}
    ensures e.DisconnectEvent? ==> forall k :: k in r.0.clients ==> r.0.clients[k] == s.clients[k]
  {
    match e
    case ConnectEvent(addr, rolled) =>
      var (s', id) := Connect(s, addr, rolled);
      (s', Registered(id))
    case DisconnectEvent(id) =>
      var (s', k) := Disconnect(s, id);
      (s', Removed(k))
    case BroadcastEvent(text, failing) => (s, Broadcast(Fanout(s, text, failing)))
  }

  /** The server handling a sequence of events, with all its answers. */
  function Run(s: UpdateServer, es: seq<Event>): (r: (UpdateServer, seq<Answer>))
    ensures |r.1| == |es|
    decreases |es|
  {
    if |es| == 0 then (s, [])
    else
      var (s1, a) := Step(s, es[0]);
      var (s2, rest) := Run(s1, es[1..]);
      (s2, [a] + rest)
  }

  /**
   A subscriber that registers receives the next broadcast in its own
   mailbox, unless its delivery fails.
   */
  lemma ConnectedReceives(s: UpdateServer, addr: Recipient, k: Id, text: string, failing: set<Id>)
    requires k !in failing
    ensures var r := Run(s, [ConnectEvent(addr, k), BroadcastEvent(text, failing)]);
      && r.1[0] == Registered(k)
      && r.1[1].Broadcast?
      && k in r.1[1].delivered
      && r.1[1].delivered[k] == Delivery(addr, text)
  {
    var es := [ConnectEvent(addr, k), BroadcastEvent(text, failing)];
    assert es[1..] == [BroadcastEvent(text, failing)];
    assert es[1..][1..] == [];
  }

  /** No event in `es` registers `id` again. */
  predicate NeverRolls(es: seq<Event>, id: Id) {
    forall i :: 0 <= i < |es| && es[i].ConnectEvent? ==> es[i].rolled != id
  }

  /** An id that is absent stays absent, and is never delivered to, until it is rolled again. */
  lemma {:induction false} AbsentStaysUntargeted(s: UpdateServer, es: seq<Event>, id: Id)
    requires id !in s.clients && NeverRolls(es, id)
    ensures id !in Run(s, es).0.clients
    ensures forall i :: 0 <= i < |es| && Run(s, es).1[i].Broadcast? ==> id !in Run(s, es).1[i].delivered
    decreases |es|
  {
    if |es| > 0 {
      var (s1, a) := Step(s, es[0]);
      assert id !in s1.clients;
      assert NeverRolls(es[1..], id) by {
        forall i | 0 <= i < |es[1..]| && es[1..][i].ConnectEvent? ensures es[1..][i].rolled != id {
          assert es[1..][i] == es[i + 1];
        }
      }
      AbsentStaysUntargeted(s1, es[1..], id);
      var r := Run(s, es);
      forall i | 0 <= i < |es| && r.1[i].Broadcast? ensures id !in r.1[i].delivered {
        if i > 0 {
          assert r.1[i] == Run(s1, es[1..]).1[i - 1];
        }
      }
    }
  }

  /** After `Disconnect(id)`, later broadcasts skip `id` unless it is registered again. */
  lemma DisconnectedUntargeted(s: UpdateServer, id: Id, later: seq<Event>)
    requires NeverRolls(later, id)
    ensures var r := Run(s, [DisconnectEvent(id)] + later);
      forall i :: 0 < i < |r.1| && r.1[i].Broadcast? ==> id !in r.1[i].delivered
  {
    var es := [DisconnectEvent(id)] + later;
    var s1 := Disconnect(s, id).0;
    assert es[1..] == later;
    AbsentStaysUntargeted(s1, later, id);
    var r := Run(s, es);
    forall i | 0 < i < |r.1| && r.1[i].Broadcast? ensures id !in r.1[i].delivered {
      assert r.1[i] == Run(s1, later).1[i - 1];
    }
  }

  /** The events that leave membership alone: broadcasts never register or remove anyone. */
  lemma {:induction false} BroadcastsKeepMembers(s: UpdateServer, es: seq<Event>)
    requires forall i :: 0 <= i < |es| ==> es[i].BroadcastEvent?
    ensures Run(s, es).0 == s
    decreases |es|
  {
    if |es| > 0 {
      assert forall i :: 0 <= i < |es[1..]| ==> es[1..][i] == es[i + 1];
      BroadcastsKeepMembers(s, es[1..]);
    }
  }

  /**
   One `WsUpdateSession`: the id it was registered under (0 until the
   server answers) and whether its context is still running.
   */
  datatype Session = Session(id: Id, running: bool)

  /** `WsUpdateSession::default`. */
  function NewSession(): (sess: Session)
    ensures sess.id == 0 && sess.running
  {
    Session(0, true)
  }

  /** `started`: the server's answer to `Connect`, or `None` when the mailbox failed. */
  function Started(sess: Session, answer: Option<Id>): (r: Session)
    ensures answer.Some? ==> r == Session(answer.value, sess.running)
    ensures answer.None? ==> r == Session(sess.id, false)
  {
    match answer
    case Some(k) => sess.(id := k)
    case None => sess.(running := false)
  }

  /** `stopping`: the session stops and asks the server to drop its id, whatever that id is. */
  function Stopping(sess: Session): (r: (Session, Event))
    ensures !r.0.running && r.0.id == sess.id
    ensures r.1 == DisconnectEvent(sess.id)
  {
    (sess.(running := false), DisconnectEvent(sess.id))
  }

  /** A websocket frame from the browser. */
  datatype WsMessage = Ping(payload: string) | Pong(payload: string) | Text(text: string) | Binary(bytes: seq<bv8>) | Close

  /** A frame the session writes to the browser. */
  datatype OutFrame = PongFrame(payload: string) | TextFrame(text: string)

  /** `Handler<Message>`: the broadcast text goes to the browser unchanged. */
  function OnUpdate(sess: Session, d: Delivery): (r: (Session, OutFrame))
    ensures r.0 == sess && r.1.TextFrame? && r.1.text == d.text
  {
    (sess, TextFrame(d.text))
  }

  /**
   `StreamHandler<ws::Message>`: a ping is answered by a pong with the same
   payload, a close stops the session, everything else is only logged.
   */
  function OnWsMessage(sess: Session, msg: WsMessage): (r: (Session, Option<OutFrame>))
    ensures r.0.id == sess.id
    ensures r.0.running == (sess.running && !msg.Close?)
    ensures r.1.Some? <==> msg.Ping?
    ensures msg.Ping? ==> r.1 == Some(PongFrame(msg.payload))
  {
    match msg
    case Ping(p) => (sess, Some(PongFrame(p)))
    case Close => (sess.(running := false), None)
    case _ => (sess, None)
  }

  /**
   A session that registers under a free id and then stops, with no event
   in between, takes its registration with it and leaves everyone else
   registered as before.
   */
  lemma SessionLifecycle(s: UpdateServer, addr: Recipient, rolled: Id)
    requires rolled !in s.clients
    ensures var (s1, k) := Connect(s, addr, rolled);
      var sess := Started(NewSession(), Some(k));
      var (_, bye) := Stopping(sess);
      && s1.clients[sess.id] == addr
      && Step(s1, bye).0 == s
  {
    var (s1, k) := Connect(s, addr, rolled);
    assert (s1.clients - {k}).Keys == s.clients.Keys;
  }

  /**
   A session that registers under an id already taken overwrites the earlier
   subscriber, and its `Disconnect` on stopping drops that id altogether:
   the earlier subscriber is gone too, and everyone else stays.
   */
  lemma SessionCollision(s: UpdateServer, addr: Recipient, rolled: Id)
    requires rolled in s.clients
    ensures var (s1, k) := Connect(s, addr, rolled);
      var sess := Started(NewSession(), Some(k));
      var (_, bye) := Stopping(sess);
      && s1.clients[sess.id] == addr
      && Step(s1, bye).0.clients == s.clients - {rolled}
      && Step(s1, bye).0 != s
  {
    var (s1, k) := Connect(s, addr, rolled);
    assert rolled !in (s1.clients - {k});
  }

  /**
   A session whose `Connect` was lost never registered, yet stopping still
   sends `Disconnect { id: 0 }`, dropping whichever subscriber holds id 0.
   */
  lemma LostConnectDropsZero(s: UpdateServer)
    ensures var sess := Started(NewSession(), None);
      var (_, bye) := Stopping(sess);
      && bye == DisconnectEvent(0)
      && 0 !in Step(s, bye).0.clients
  {
  }
}
